=== FILE: README.md ===
# gcp_tool and the gcloud command executor, modelled in Dafny

The agent answers questions about a Google Cloud account by running the
`gcloud` and `bq` command-line tools. Two layers are modelled:

- **The command executor** (`multi_tool_agent/command_executor.py`).
  - `execute_gcloud_command` routes a literal command by its prefix: `bq query `,
    then `bq `, then `gcloud `; anything else is refused.
  - `handle_gcloud_command` and `handle_bigquery_command` tokenize the rest of the
    command and add `--format=json` unless a token already asks for a format.
  - `handle_bigquery_query` separates the flags of a `bq query` command from its
    SQL text, removes the quotes around the SQL and puts backticks around
    `project.dataset.table` references after `FROM`.
  - `execute_subprocess` turns a finished process into one result shape: success
    with parsed JSON or stripped text, or an error with a message and exit code.
- **The query tool** (`multi_tool_agent/gcp_tool.py`).
  - `gcp_tool` sends literal commands to the executor. It tests other queries
    against an ordered chain of regular expressions, where the first match wins.
    Each branch issues a fixed or templated command and shapes the result: a
    formatted listing, the result unchanged, or a confirmation.
  - `_format_list_response` renders a listing.
  - `get_suggested_commands` picks suggested commands by keyword.

Modules, in dependency order:

- `Text` holds the Python string operations used.
- `Executor` is the subprocess boundary.
- `BqSql` is the SQL-aware part of the query handler.
- `Router` builds the argument vectors and dispatches.
- `Pattern` is a matcher for the regular expressions used.
- `Suggestions` is the suggestion engine.
- `Intents` is the branch chain.
- `GcpTool` holds the branches, the response shaping and `gcp_tool` itself.

Collaborators the model cannot see are the fields of an `Executor.Host` value:

- `shlex.split`;
- `subprocess.run`;
- `json.loads` and `json.dumps`;
- `str()` of an exception or of a container;
- the tool paths.

Notes on the code:

- The builders keep every format token the user gave and add `--format=json`
  only when there is none. So a vector can hold several format flags:
  `Router.GenericFormatCount` proves the count is the user's count, or one
  when the user gave none.
- The executor catches only a failed exit status (`CalledProcessError`). A
  tool that cannot be launched raises out of it. So the model's `run` always
  yields a finished process.
- The billing-account id keeps the part after the last `/` when it starts
  with `billingAccounts/`. This is more than removing the prefix.
- The `gcloud billing ` alias branch of `gcp_tool` can never be reached. The
  literal-command branch before it already takes every query with that prefix.

## Model

| member | source | states |
|---|---|---|
| Executor.Lookup | multi_tool_agent/gcp_tool.py:147 | `dict.get` on an object gives nothing exactly when no member has the key, and otherwise the value of the last member with it |
| Executor.Execute | multi_tool_agent/command_executor.py:30-63 | the result is a success exactly when the command exits with 0, and an error carries that exit code |
| Executor.Shape | multi_tool_agent/command_executor.py:44-63 | a result is a success exactly when the process exits with 0; parsed JSON when it decodes, else the stripped output; a failure carries the exit code and the stripped stderr, or the exception text when stderr is empty |
| Executor.ShapeStripped | multi_tool_agent/command_executor.py:53-61 | plain output and an error message taken from stderr are already stripped: stripping them again changes nothing |
| Text.StripIdempotent | multi_tool_agent/command_executor.py:55 | `str.strip` applied twice is applied once |
| Text.SplitJoin | multi_tool_agent/gcp_tool.py:26 | joining newline-free lines with a newline and splitting at newlines gives the lines back |
| Router.GenericArgs | multi_tool_agent/command_executor.py:159-172 | the generic vector is the tool, every token in order, and `--format=json` exactly when no token asks for a format |
| Router.GenericFormatCount | multi_tool_agent/command_executor.py:185-197 | the builder never adds a second format flag: the tail keeps the user's count of format tokens, or has exactly one when the user gave none |
| Router.GenericIdempotent | multi_tool_agent/command_executor.py:185-197 | building a vector again from a built vector's tail gives the same vector |
| Router.QueryVector | multi_tool_agent/command_executor.py:120-142 | the query vector is the tool, `query`, the flags in order, `--format=json` unless some argument so far asks for a format, and last the SQL unquoted and backticked, with nothing else in the vector |
| Router.QueryArgs | multi_tool_agent/command_executor.py:76-82 | a query command is refused with the missing-SQL message exactly when `split(maxsplit=2)` yields fewer than three parts |
| Router.QueryCommand | multi_tool_agent/command_executor.py:76-85 | after the `bq query ` prefix, the SQL is missing exactly when only whitespace follows; otherwise the remainder without leading whitespace is what gets split |
| Router.BuildArgs | multi_tool_agent/command_executor.py:215-226 | prefixes are tried in order: `bq query `, `bq `, `gcloud `, else unsupported; every vector built has a format flag |
| Router.Route | multi_tool_agent/command_executor.py:199-226 | an error without an exit code comes exactly from a refused command, and the unsupported-format error exactly from a command with neither `bq ` nor `gcloud `; a built vector is run by the executor |
| Router.DispatchQuery | multi_tool_agent/command_executor.py:216-219 | a `bq query ` command never reaches the plain `bq` handler; it is refused exactly when nothing but whitespace follows, and otherwise runs `bq query` |
| Router.DispatchOther | multi_tool_agent/command_executor.py:218-226 | any other command is refused exactly when it starts with neither `bq ` nor `gcloud `; otherwise it runs the tool its prefix names |
| Router.QuotedQueryWithFlag | multi_tool_agent/command_executor.py:94-142 | `bq query --flag "SQL"` with backticked SQL, under a whitespace tokenizer, yields the tool, `query`, the flag, `--format=json` and the SQL without quotes |
| BqSql.QuotedSpan | multi_tool_agent/command_executor.py:95 | the quoted span found is the first quote up to the next quote; no span means there are not two quotes |
| BqSql.QuotedCase | multi_tool_agent/command_executor.py:94-102 | with quoted SQL, the SQL is the first quoted span and unquotes to its body; the flags are the tokens of the stripped text before it, and the text after it is dropped |
| BqSql.SplitQuery | multi_tool_agent/command_executor.py:94-118 | with quotes, the SQL is a quoted span with no quote inside; without, the flags are a prefix of the tokens and start with a flag when there are any |
| BqSql.UnquotedNoFlags | multi_tool_agent/command_executor.py:104-115 | without quotes, a leading non-flag token means no flags, and the SQL is all tokens joined by spaces |
| BqSql.UnquotedSplit | multi_tool_agent/command_executor.py:103-118 | without quotes, the flags are a prefix of the tokens, each a flag or the value of a flag without `=`; the SQL is the tokens from the first SQL-opening token on, or all of the text when no token opens it |
| BqSql.Unquote | multi_tool_agent/command_executor.py:127-129 | the SQL loses exactly its enclosing pair of quotes, and is otherwise unchanged; a lone quote becomes the empty string |
| BqSql.TableRefAtShape | multi_tool_agent/command_executor.py:133 | the table-reference matcher finds exactly `FROM`, blanks and a `word[-word].word.word` identifier, and takes the last part as far as it goes |
| BqSql.Backtick | multi_tool_agent/command_executor.py:131-140 | SQL holding a backtick is left alone; otherwise removing backticks gives the SQL back, so the step only inserts backticks; the SQL is changed exactly when it has no backtick and holds a table reference |
| BqSql.BacktickIdempotent | multi_tool_agent/command_executor.py:133-140 | applying the backtick step twice is applying it once |
| BqSql.BacktickWrapsEvery | multi_tool_agent/command_executor.py:131-140 | SQL made of clauses `<text>FROM<blanks>p.d.t`, each separated from the identifier before it and with no `f` or backtick in the text before its `FROM`, gets the identifier of every clause wrapped in backticks, in order, and nothing else changes |
| BqSql.BacktickWrapsReference | multi_tool_agent/command_executor.py:133-140 | `... FROM proj-1.dataset.table` gets exactly that identifier wrapped in backticks, and nothing else changes |
| Suggestions.FiredMembers | multi_tool_agent/gcp_tool.py:41-86 | a command comes from the keyword rules exactly when the one rule that lists it fires |
| Suggestions.FallbackExactly | multi_tool_agent/gcp_tool.py:88-100 | the fallback list is used exactly when no keyword rule fires, and the suggestions are never empty |
| Suggestions.ProjectsListSuggested | multi_tool_agent/gcp_tool.py:42-44 | `gcloud projects list` is suggested exactly when the query mentions a project with list, show or all, or when no rule fires; in the first case it comes first |
| Suggestions.TableSuggestion | multi_tool_agent/gcp_tool.py:70-77 | table suggestions appear exactly when the query mentions bigquery, bq or dataset, and also a table and list, show or all |
| Suggestions.Suggest | multi_tool_agent/gcp_tool.py:29-102 | the output starts with the header line, the rest is the suggestions joined by line feeds, there is at least one suggestion, and the text of every suggested command appears in the output |
| Intents.Classify | multi_tool_agent/gcp_tool.py:116-361 | the branch taken is one whose test holds, and no earlier branch's test holds |
| Intents.ClassifyExactly | multi_tool_agent/gcp_tool.py:116-361 | a query takes a branch exactly when that branch's test holds and every earlier branch's test fails |
| Intents.DirectFirst | multi_tool_agent/gcp_tool.py:116 | a query is handled as a literal command exactly when it starts with `gcloud ` or `bq ` |
| Intents.BillingAliasUnreachable | multi_tool_agent/gcp_tool.py:280-281 | no query reaches the `gcloud billing ` branch |
| Intents.QualifierSearch | multi_tool_agent/gcp_tool.py:327-328 | the `in project X` or `in dataset X` qualifier is found exactly when the regular expression matches; it is the non-empty, whitespace-free word of the leftmost match |
| GcpTool.NotUnderstood | multi_tool_agent/gcp_tool.py:366 | the message for an unhandled query quotes the query |
| GcpTool.FormatItems | multi_tool_agent/gcp_tool.py:26 | formatting succeeds exactly when every item can be formatted; it then gives one line per item, in input order |
| GcpTool.FormatList | multi_tool_agent/gcp_tool.py:12-27 | an empty listing says `No ` and names the title in lower case; a non-empty one starts with the title line and, for lines without line feeds, splits back into the title line and the item lines, in order |
| GcpTool.FormatItem | multi_tool_agent/gcp_tool.py:147-350 | the eight formatters (lines 147, 159, 209, 223, 235, 247-249, 318 and 350): a line exists exactly for a dictionary, and for an account only when its `name` is missing or a string; the line starts with `- ` and the item's leading value (`name`, `displayName`, `id` or `tableId`), `Unknown` when that key is missing |
| GcpTool.AccountIdPrefixed | multi_tool_agent/gcp_tool.py:267-269 | `billingAccounts/ID` yields `ID`, and an id without the prefix is kept |
| GcpTool.DirectResponse | multi_tool_agent/gcp_tool.py:116-139 | a literal command is reported exactly when the router succeeds: plain output as it is, a JSON list or object as `json.dumps` prints it, any other JSON value as `str()` prints it, each after the success prefix; a failure gives the router's message after the error prefix, with the suggestions for the query |
| GcpTool.FixedListingCommands | multi_tool_agent/gcp_tool.py:142-155 | a non-literal query that asks to list projects issues `gcloud projects list`; one that asks for instances and not projects issues `gcloud compute instances list` |
| GcpTool.ListingResponse | multi_tool_agent/gcp_tool.py:145-152 | a listing returns the router's result unchanged exactly when it is not a JSON list; it raises exactly when some item of the list cannot be formatted; otherwise it reports |
| GcpTool.ListingReport | multi_tool_agent/gcp_tool.py:145-151 | a non-empty JSON list is reported as the title and one formatted line per item in input order, or raises exactly when some item cannot be formatted |
| GcpTool.ListingEmpty | multi_tool_agent/gcp_tool.py:23-24 | an empty list gives the branch's own text, or `No <title in lower case> found.` |
| GcpTool.ListingBranches | multi_tool_agent/gcp_tool.py:142-354 | every listing branch issues a command whose result is formatted as a listing, except a tables query without a dataset |
| GcpTool.ServicesQualifier | multi_tool_agent/gcp_tool.py:198-214 | an `in project X` qualifier becomes `--project=X` in the services command and ` in project X` in the title, and only then does the command differ from the plain one |
| GcpTool.DatasetsQualifier | multi_tool_agent/gcp_tool.py:298-316 | the qualifier becomes `--project=X` in the datasets command and appears in the empty-list text, and only then does the command differ from `bq ls` |
| GcpTool.TablesNeedDataset | multi_tool_agent/gcp_tool.py:325-361 | a tables query without `in dataset D` gets the fixed error and suggestions whatever the host does |
| GcpTool.UnrecognizedResponse | multi_tool_agent/gcp_tool.py:363-368 | an unhandled query gets an error that quotes it, with its suggestions, whatever the host does |
| GcpTool.LinkBillingResponse | multi_tool_agent/gcp_tool.py:256-278 | for any captured texts, the branch issues `gcloud billing projects link P --billing-account=A` with the stripped project and the stripped account reduced by the `billingAccounts/` rule; on the router's success it confirms linking that account to that project, and otherwise returns the router's result |
| GcpTool.LinkSameInvocation | multi_tool_agent/gcp_tool.py:256-271 | the command the billing-link branch issues, typed literally, is run as that same command |
| GcpTool.BucketsResponse | multi_tool_agent/gcp_tool.py:166-190 | the buckets branch fails exactly as the executor would on `gcloud storage ls --format=gsutil`; on success it reports the stripped output after its own prefix, without parsing JSON |
| GcpTool.Branch | multi_tool_agent/gcp_tool.py:116-361 | only the buckets branch bypasses the router; an answer that runs nothing, always an error, comes exactly from an unhandled query or a tables query without a dataset; the result is echoed exactly for a literal command, passed through unchanged exactly for the describe branch, and confirmed exactly for the billing link |
| GcpTool.Tool | multi_tool_agent/gcp_tool.py:104-368 | only a literal command, a tables query without `in dataset D` and an unhandled query answer with an error carrying suggestions; only a listing raises; a result returned as it is comes from the buckets branch or is the router's result for the issued command |
| GcpTool.IssuedCommandsRun | multi_tool_agent/command_executor.py:215-226 | every command a natural-language branch issues is accepted by the router, never refused as unsupported or as a query without SQL |

## Left out

- `shlex.split`, `json.loads`, `json.dumps` and `str()` of exceptions and containers are abstract functions of the `Host`. Their own behaviour is not modelled.
- `subprocess.run` is an abstract function from an argument vector to a finished process. Timing, the environment and concurrency are not modelled.
- `debug_log` and the `DEBUG` switch only print, so they are not modelled.
- The tool paths are fixed values of the `Host`. Reading `GCLOUD_PATH` and `BQ_PATH` from the environment, a missing variable (`None`) and the Windows default path of the buckets branch are not modelled.
- A tool that cannot be launched raises `FileNotFoundError` or `OSError` out of the executor. This is not modelled: `run` always yields an exit status.
- BqSql.TableRefAtShape: `\w` and `[-\w]` are ASCII only in the model. Python's `\w` also takes non-ASCII letters and digits, so a non-ASCII character ends an identifier part in the model where it continues one in the source.
- Whitespace and case folding are ASCII only. Unicode whitespace and non-ASCII case folding of `re.IGNORECASE` and `str.lower` are not modelled.
- GcpTool.Captures: the captured texts of `describe\s+project\s+(.+)` and of the combined billing-link expression (lines 193 and 261) are inputs, not computed. The combined expression of line 261 accepts every query the three tests of lines 256-258 accept, so its `if match` always holds. Which match supplies the texts is not modelled: they are not tied to the leftmost match of line 193 or line 261.
- GcpTool.Branch: the body of the `gcloud billing ` alias branch (lines 282-295) is not modelled, because `Intents.BillingAliasUnreachable` proves no query reaches it.
- A JSON object keeps its members in document order, duplicates included, and `dict.get` takes the last value for a key. JSON numbers keep the text `str()` prints for them; floating point is not modelled.
- `multi_tool_agent/agent.py` and `multi_tool_agent/utils.py` are not part of this model.
- BqSql.Backtick: which text gets wrapped is stated only for SQL built from clauses as in BqSql.BacktickWrapsEvery, where the text before each `FROM` holds no `f` (in either case) and no backtick. For other SQL the model states only that the step inserts backticks and when it changes anything.
- BqSql.BacktickWrapsReference: the case of one clause ending the SQL; the general case is BqSql.BacktickWrapsEvery.

=== FILE: bqsql.dfy ===
/**
 The SQL-aware part of `handle_bigquery_query` (multi_tool_agent/command_executor.py):
 separating the flags of a `bq query` command from its SQL text, removing the
 quotes around the SQL, and putting backticks around `project.dataset.table`
 references that follow `FROM`.
 */
module BqSql {
  import opened Wrappers
  import opened Text

  /** The flags and the SQL text found in the remainder of a `bq query` command. */
  datatype Split = Split(flags: seq<string>, sql: string)

  // ---------------------------------------------------------------------------
  // Quoted SQL

  /** `re.search(r'"([^"]*)"', rest)`: the positions of the first double quote
      and of the next one after it. The character class excludes quotes, so the
      leftmost match always runs from the first quote to the second. */
  function QuotedSpan(rest: string): (r: Option<(nat, nat)>)
    ensures r.Some? ==> r.value.0 < r.value.1 < |rest|
    ensures r.Some? ==> rest[r.value.0] == '"' && rest[r.value.1] == '"'
    ensures r.Some? ==> forall k :: 0 <= k < r.value.1 && k != r.value.0 ==> rest[k] != '"'
    ensures r.None? ==> forall k, m :: 0 <= k < m < |rest| && rest[k] == '"' ==> rest[m] != '"'
  {
    match IndexOf(rest, '"', 0)
    case None => None
    case Some(i) =>
      match IndexOf(rest, '"', i + 1)
      case None => None
      case Some(j) => Some((i, j))
  }

  /** `rest.find(sql)` for the quoted text the search found is where its
      opening quote stands: no earlier position holds a quote. */
  lemma FindQuoted(rest: string, i: nat, j: nat)
    requires i < j < |rest| && rest[i] == '"'
    requires forall k :: 0 <= k < i ==> rest[k] != '"'
    ensures Find(rest, rest[i..j + 1]) == i
  {
    var sql := rest[i..j + 1];
    assert StartsWith(rest[i..], sql);
    forall k | 0 <= k < i
      ensures !StartsWith(rest[k..], sql)
    {
      assert rest[k..][0] != sql[0];
    }
  }

  // ---------------------------------------------------------------------------
  // Unquoted SQL: the flag/SQL boundary

  predicate IsFlag(t: string) {
    StartsWith(t, "--")
  }

  /** Token `i` opens the SQL text: it is not a flag, and it is the first token,
      or follows a token that holds `=` or is not a flag (a flag without `=` is
      taken to consume the token after it as its value). */
  predicate OpensSql(parts: seq<string>, i: nat)
    requires i < |parts|
  {
    !IsFlag(parts[i]) && (i == 0 || '=' in parts[i - 1] || !IsFlag(parts[i - 1]))
  }

  /** The first index at or after `from` that opens the SQL text. */
  function BoundaryFrom(parts: seq<string>, from: nat): (r: Option<nat>)
    requires from <= |parts|
    ensures r.Some? ==> from <= r.value < |parts| && OpensSql(parts, r.value)
    ensures r.Some? ==> forall k :: from <= k < r.value ==> !OpensSql(parts, k)
    ensures r.None? ==> forall k :: from <= k < |parts| ==> !OpensSql(parts, k)
    decreases |parts| - from
  {
    if from == |parts| then None
    else if OpensSql(parts, from) then Some(from)
    else BoundaryFrom(parts, from + 1)
  }

  /** The `for i, part in enumerate(parts)` scan of the unquoted case. */
  function Boundary(parts: seq<string>): Option<nat> {
    BoundaryFrom(parts, 0)
  }

  /** Flags and SQL text of the remainder `rest` of a `bq query` command, with
      `tokenize` standing for `shlex.split`. With a quoted span, the flags are
      the tokens before it and the SQL is the span, quotes included; anything
      after the closing quote is dropped. Without one, the flags are the tokens
      before the boundary and the SQL the tokens from it on, joined by single
      spaces; with no boundary there are no flags and the SQL is all of `rest`. */
  function SplitQuery(rest: string, tokenize: string -> seq<string>): (r: Split)
    ensures QuotedSpan(rest).Some? ==>
              && |r.sql| >= 2 && r.sql[0] == '"' && r.sql[|r.sql| - 1] == '"'
              && '"' !in r.sql[1..|r.sql| - 1]
    ensures QuotedSpan(rest).None? ==>
              && |r.flags| <= |tokenize(rest)| && r.flags == tokenize(rest)[..|r.flags|]
              && (r.flags != [] ==> IsFlag(tokenize(rest)[0]))
  {
    match QuotedSpan(rest)
    case Some((i, j)) => QuotedSplit(rest, i, j, tokenize)
    case None => UnquotedSplitOf(rest, tokenize)
  }

  /** The quoted case: the span from the first quote to the second is the SQL,
      and the tokens of the stripped text before it are the flags. */
  function QuotedSplit(rest: string, i: nat, j: nat, tokenize: string -> seq<string>): (r: Split)
    requires i < j < |rest| && rest[i] == '"' && rest[j] == '"'
    requires forall k :: 0 <= k < j && k != i ==> rest[k] != '"'
    ensures r.sql == rest[i..j + 1]
    ensures |r.sql| >= 2 && r.sql[0] == '"' && r.sql[|r.sql| - 1] == '"'
    ensures '"' !in r.sql[1..|r.sql| - 1]
  {
    var sql := rest[i..j + 1];
    FindQuoted(rest, i, j);
    var body := rest[i + 1..j];
    assert sql[1..|sql| - 1] == body;
    assert forall k :: 0 <= k < |body| ==> body[k] == rest[i + 1 + k];
    var before := Strip(rest[..Find(rest, sql)]);
    Split(if before == "" then [] else tokenize(before), sql)
  }

  /** The unquoted case: the tokens before the boundary are the flags, and
      the tokens from it on, joined by single spaces, the SQL. */
  function UnquotedSplitOf(rest: string, tokenize: string -> seq<string>): (r: Split)
    ensures |r.flags| <= |tokenize(rest)| && r.flags == tokenize(rest)[..|r.flags|]
    ensures r.flags != [] ==> IsFlag(tokenize(rest)[0])
  {
    var parts := tokenize(rest);
    match Boundary(parts)
    case Some(b) => Split(parts[..b], Join(parts[b..], " "))
    case None => Split([], rest)
  }

  /** `sql[1:-1]` when `sql` starts and ends with a double quote (a lone quote
      becomes the empty string), else `sql` itself. */
  function Unquote(sql: string): (r: string)
    ensures r == sql || sql == "\"" + r + "\"" || (sql == "\"" && r == "")
    ensures |sql| >= 2 && sql[0] == '"' && sql[|sql| - 1] == '"' ==> |r| == |sql| - 2
    ensures (sql == "" || sql[0] != '"' || sql[|sql| - 1] != '"') ==> r == sql
    ensures sql == "\"" ==> r == ""
  {
    if |sql| >= 1 && sql[0] == '"' && sql[|sql| - 1] == '"' then
      if |sql| >= 2 then sql[1..|sql| - 1] else ""
    else sql
  }

  /** With the first two quotes of `rest` around `body`, the SQL is `body` in
      its quotes and the flags are the tokens of the text before the opening
      quote; whatever follows the closing quote plays no part. */
  lemma QuotedCase(pre: string, body: string, post: string, tokenize: string -> seq<string>)
    requires '"' !in pre && '"' !in body
    ensures var sp := SplitQuery(pre + "\"" + body + "\"" + post, tokenize);
            && sp.sql == "\"" + body + "\""
            && Unquote(sp.sql) == body
            && sp.flags == (if Strip(pre) == "" then [] else tokenize(Strip(pre)))
  {
    var rest := pre + "\"" + body + "\"" + post;
    QuotedPositions(pre, body, post);
    FindQuoted(rest, |pre|, |pre| + 1 + |body|);
  }

  /** Where the first two quotes of `pre + "body" + post` are. */
  lemma QuotedPositions(pre: string, body: string, post: string)
    requires '"' !in pre && '"' !in body
    ensures var rest := pre + "\"" + body + "\"" + post;
            var i := |pre|;
            var j := |pre| + 1 + |body|;
            && IndexOf(rest, '"', 0) == Some(i)
            && IndexOf(rest, '"', i + 1) == Some(j)
            && rest[i..j + 1] == "\"" + body + "\""
            && rest[..i] == pre
  {
    var rest := pre + "\"" + body + "\"" + post;
    var i := |pre|;
    var j := |pre| + 1 + |body|;
    assert rest[i] == '"' && rest[j] == '"';
    assert forall k :: 0 <= k < i ==> rest[k] == pre[k];
    assert forall k :: i < k < j ==> rest[k] == body[k - i - 1];
    assert rest[i..j + 1] == "\"" + body + "\"";
    assert rest[..i] == pre;
  }

  /** Without a quoted span, a leading token that is not a flag opens the SQL
      at once: there are no flags and the SQL is every token, space-joined. */
  lemma UnquotedNoFlags(rest: string, tokenize: string -> seq<string>)
    requires QuotedSpan(rest).None?
    requires |tokenize(rest)| > 0 && !IsFlag(tokenize(rest)[0])
    ensures SplitQuery(rest, tokenize) == Split([], Join(tokenize(rest), " "))
  {
    var parts := tokenize(rest);
    assert OpensSql(parts, 0);
    assert parts[..0] == [] && parts[0..] == parts;
  }

  /** Without a quoted span, the flags are a prefix of the tokens, each of
      them a flag or the value of the flag before it. When some token opens the
      SQL, the first such token follows the flags and the SQL is the tokens from
      it on, space-joined; otherwise there are no flags and the SQL is all of
      `rest`. */
  lemma UnquotedSplit(rest: string, tokenize: string -> seq<string>)
    requires QuotedSpan(rest).None?
    ensures var sp := SplitQuery(rest, tokenize);
            var parts := tokenize(rest);
            && |sp.flags| <= |parts|
            && sp.flags == parts[..|sp.flags|]
            && (forall k :: 0 <= k < |sp.flags| ==>
                  IsFlag(parts[k]) || (k > 0 && '=' !in parts[k - 1] && IsFlag(parts[k - 1])))
            && ((exists k :: 0 <= k < |parts| && OpensSql(parts, k)) ==>
                  |sp.flags| < |parts| && OpensSql(parts, |sp.flags|)
                  && sp.sql == Join(parts[|sp.flags|..], " "))
            && ((forall k :: 0 <= k < |parts| ==> !OpensSql(parts, k)) ==>
                  sp.flags == [] && sp.sql == rest)
  {
    var parts := tokenize(rest);
    var sp := SplitQuery(rest, tokenize);
    match Boundary(parts)
    case Some(b) =>
      assert sp == Split(parts[..b], Join(parts[b..], " "));
      forall k | 0 <= k < b
        ensures IsFlag(parts[k]) || (k > 0 && '=' !in parts[k - 1] && IsFlag(parts[k - 1]))
      {
        assert !OpensSql(parts, k);
      }
    case None =>
      assert sp == Split([], rest);
  }

  // ---------------------------------------------------------------------------
  // Backticks around table references

  /** `\w` on ASCII text. */
  predicate IsWordChar(c: char) {
    'a' <= c <= 'z' || 'A' <= c <= 'Z' || '0' <= c <= '9' || c == '_'
  }

  /** `[-\w]`. */
  predicate IsIdentChar(c: char) {
    IsWordChar(c) || c == '-'
  }

  /** The end of the run of `[-\w]` (or, with `hyphen` false, `\w`) characters at `i`. */
  function SkipIdent(s: string, i: nat, hyphen: bool): (j: nat)
    requires i <= |s|
    ensures i <= j <= |s|
    ensures forall k :: i <= k < j ==> IsIdentChar(s[k]) && (hyphen || IsWordChar(s[k]))
    ensures j == |s| || !(if hyphen then IsIdentChar(s[j]) else IsWordChar(s[j]))
    decreases |s| - i
  {
    if i < |s| && (if hyphen then IsIdentChar(s[i]) else IsWordChar(s[i])) then SkipIdent(s, i + 1, hyphen)
    else i
  }

  /** `\w+[-\w]*\.\w+\.\w+` matched from position `a`, where `s[a]` is a word
      character: the end of the identifier. Each repetition must end at a
      character it cannot take, so the regular expression's backtracking never
      changes where a part ends. */
  function IdentEnd(s: string, a: nat): (r: Option<nat>)
    requires a <= |s|
    ensures r.Some? ==> a < r.value <= |s|
    ensures r.Some? ==> forall k :: a <= k < r.value ==> s[k] != '`'
  {
    var b := SkipIdent(s, a, true);
    if b == |s| || s[b] != '.' then None
    else
      var c := SkipIdent(s, b + 1, false);
      if c == b + 1 || c == |s| || s[c] != '.' then None
      else
        var d := SkipIdent(s, c + 1, false);
        if d == c + 1 then None else Some(d)
  }

  /** `FROM\s+\w+[-\w]*\.\w+\.\w+` (case-insensitive) matched at the start of
      `s`; the result is where the table identifier starts and ends. */
  function TableRefAt(s: string): (r: Option<(nat, nat)>)
    ensures r.Some? ==> 4 < r.value.0 < r.value.1 <= |s|
    ensures r.Some? ==> forall k :: 0 <= k < r.value.1 ==> s[k] != '`'
  {
    if !StartsWithCI(s, "from") then None
    else
      assert forall k :: 0 <= k < 4 ==> Lower(s[k]) == "from"[k];
      var a := SkipSpaces(s, 4);
      if a == 4 || a == |s| || !IsWordChar(s[a]) then None
      else
        match IdentEnd(s, a)
        case None => None
        case Some(d) => Some((a, d))
  }

  /** `s[a..d]` is a `[-\w]` run that starts with a word character, a dot, a
      word run, a dot and a word run. */
  ghost predicate IdentShape(s: string, a: nat, d: nat) {
    && a < d <= |s| && IsWordChar(s[a])
    && exists b, c :: a < b && b + 1 < c && c + 1 < d && s[b] == '.' && s[c] == '.'
         && (forall k :: a <= k < b ==> IsIdentChar(s[k]))
         && (forall k :: b < k < c ==> IsWordChar(s[k]))
         && (forall k :: c < k < d ==> IsWordChar(s[k]))
  }

  /** What `FROM\s+(\w+[-\w]*\.\w+\.\w+)` asks of a match at the start of `s`
      whose identifier is `s[a..d]`, stated without any scanning: `from` in any
      case, at least one whitespace character up to `a`, then the identifier. */
  ghost predicate TableRefShape(s: string, a: nat, d: nat) {
    && 4 < a < |s| && StartsWithCI(s, "from")
    && (forall k :: 4 <= k < a ==> IsSpace(s[k]))
    && IdentShape(s, a, d)
  }

  lemma IdentEndShape(s: string, a: nat)
    requires a < |s| && IsWordChar(s[a])
    ensures IdentEnd(s, a).Some? ==>
              IdentShape(s, a, IdentEnd(s, a).value)
              && (IdentEnd(s, a).value == |s| || !IsWordChar(s[IdentEnd(s, a).value]))
    ensures forall d: nat :: IdentShape(s, a, d) ==> IdentEnd(s, a).Some? && IdentEnd(s, a).value >= d
  {
    var b := SkipIdent(s, a, true);
    if IdentEnd(s, a).Some? {
      var c := SkipIdent(s, b + 1, false);
      var d := SkipIdent(s, c + 1, false);
      assert IdentEnd(s, a) == Some(d);
      assert IdentShape(s, a, d);
    }
    forall d: nat | IdentShape(s, a, d)
      ensures IdentEnd(s, a).Some? && IdentEnd(s, a).value >= d
    {
      IdentShapeFound(s, a, d);
    }
  }

  lemma IdentShapeFound(s: string, a: nat, d: nat)
    requires IdentShape(s, a, d)
    ensures IdentEnd(s, a).Some? && IdentEnd(s, a).value >= d
  {
    var b, c :| a < b && b + 1 < c && c + 1 < d && s[b] == '.' && s[c] == '.'
         && (forall k :: a <= k < b ==> IsIdentChar(s[k]))
         && (forall k :: b < k < c ==> IsWordChar(s[k]))
         && (forall k :: c < k < d ==> IsWordChar(s[k]));
    IdentFoundAt(s, a, b, c, d);
  }

  lemma IdentFoundAt(s: string, a: nat, b: nat, c: nat, d: nat)
    requires a < b && b + 1 < c && c + 1 < d <= |s| && s[b] == '.' && s[c] == '.'
    requires forall k :: a <= k < b ==> IsIdentChar(s[k])
    requires forall k :: b < k < c ==> IsWordChar(s[k])
    requires forall k :: c < k < d ==> IsWordChar(s[k])
    ensures IdentEnd(s, a).Some? && IdentEnd(s, a).value >= d
  {
    assert !IsIdentChar(s[b]) && !IsIdentChar(s[c]);
    SkipIdentStops(s, a, b, true);
    SkipIdentStops(s, b + 1, c, false);
    IdentEndAt(s, a, b, c, d);
  }

  lemma IdentEndAt(s: string, a: nat, b: nat, c: nat, d: nat)
    requires a <= |s|
    requires SkipIdent(s, a, true) == b && b < |s| && s[b] == '.'
    requires SkipIdent(s, b + 1, false) == c && c != b + 1 && c < |s| && s[c] == '.'
    requires c + 1 < d <= |s| && forall k :: c < k < d ==> IsWordChar(s[k])
    ensures IdentEnd(s, a).Some? && IdentEnd(s, a).value >= d
  {
    SkipIdentReaches(s, c + 1, d);
  }

  /** What the matcher returns has the shape, with the last word run taken as
      far as it goes. */
  lemma TableRefAtSound(s: string)
    ensures TableRefAt(s).Some? ==>
              var (a, d) := TableRefAt(s).value;
              TableRefShape(s, a, d) && (d == |s| || !IsWordChar(s[d]))
  {
    if StartsWithCI(s, "from") && 4 < |s| {
      var a := SkipSpaces(s, 4);
      if a < |s| && IsWordChar(s[a]) {
        IdentEndShape(s, a);
      }
    }
  }

  /** Wherever the shape occurs, the matcher finds a match at the same
      identifier start, reaching at least as far. */
  lemma TableRefAtComplete(s: string, a: nat, d: nat)
    requires TableRefShape(s, a, d)
    ensures TableRefAt(s).Some? && TableRefAt(s).value.0 == a && TableRefAt(s).value.1 >= d
  {
    assert !IsSpace(s[a]);
    SkipSpacesStops(s, 4, a);
    IdentEndShape(s, a);
  }

  /** The matcher finds exactly the shape: what it returns has the shape, with
      the last word run taken as far as it goes, and wherever the shape occurs
      the matcher finds a match at the same identifier start, reaching at
      least as far. */
  lemma TableRefAtShape(s: string)
    ensures TableRefAt(s).Some? ==>
              var (a, d) := TableRefAt(s).value;
              TableRefShape(s, a, d) && (d == |s| || !IsWordChar(s[d]))
    ensures forall a: nat, d: nat :: TableRefShape(s, a, d) ==>
              TableRefAt(s).Some? && TableRefAt(s).value.0 == a && TableRefAt(s).value.1 >= d
  {
    TableRefAtSound(s);
    forall a: nat, d: nat | TableRefShape(s, a, d)
      ensures TableRefAt(s).Some? && TableRefAt(s).value.0 == a && TableRefAt(s).value.1 >= d
    {
      TableRefAtComplete(s, a, d);
    }
  }

  lemma {:induction false} SkipSpacesStops(s: string, i: nat, j: nat)
    requires i <= j < |s| && !IsSpace(s[j])
    requires forall k :: i <= k < j ==> IsSpace(s[k])
    ensures SkipSpaces(s, i) == j
    decreases j - i
  {
    if i < j {
      SkipSpacesStops(s, i + 1, j);
    }
  }

  lemma {:induction false} SkipIdentStops(s: string, i: nat, j: nat, hyphen: bool)
    requires i <= j < |s| && !IsIdentChar(s[j])
    requires forall k :: i <= k < j ==> IsIdentChar(s[k]) && (hyphen || IsWordChar(s[k]))
    ensures SkipIdent(s, i, hyphen) == j
    decreases j - i
  {
    if i < j {
      SkipIdentStops(s, i + 1, j, hyphen);
    }
  }

  lemma {:induction false} SkipIdentReaches(s: string, i: nat, j: nat)
    requires i <= j <= |s|
    requires forall k :: i <= k < j ==> IsWordChar(s[k])
    ensures SkipIdent(s, i, false) >= j
    decreases j - i
  {
    if i < j {
      SkipIdentReaches(s, i + 1, j);
    }
  }

  /** A pattern matched at the start of a text, giving where the part to be
      wrapped starts and ends; the match itself is never empty. */
  type Matcher = string -> Option<(nat, nat)>

  ghost predicate Anchored(at: Matcher) {
    forall t :: at(t).Some? ==> 0 < at(t).value.0 < at(t).value.1 <= |t|
  }

  lemma TableRefAnchored()
    ensures Anchored(TableRefAt)
  {
  }

  /** `re.search`: the pattern matches at some position of `s`. */
  predicate Found(s: string, at: Matcher)
    decreases |s|
  {
    at(s).Some? || (|s| > 0 && Found(s[1..], at))
  }

  /** `re.sub` with the replacement `\1`\2``: scanning left to right, each
      match gets its second part wrapped in backticks and the scan resumes after
      the match; characters where no match starts are copied. */
  function SubAll(s: string, at: Matcher): string
    requires Anchored(at)
    decreases |s|
  {
    if s == "" then ""
    else
      match at(s)
      case Some((a, d)) => s[..a] + "`" + s[a..d] + "`" + SubAll(s[d..], at)
      case None => [s[0]] + SubAll(s[1..], at)
  }

  /** `re.search` for the table-reference pattern. */
  predicate HasTableRef(s: string) {
    Found(s, TableRefAt)
  }

  /** The substitution of `handle_bigquery_query` on table references. */
  function Wrap(s: string): string {
    TableRefAnchored();
    SubAll(s, TableRefAt)
  }

  /** The backtick step: SQL that already holds a backtick is left alone, and
      so is SQL without a table reference; otherwise every reference is wrapped.
      The step changes its input exactly in the second case, and then only by
      inserting backticks. */
  function Backtick(sql: string): (r: string)
    ensures '`' in sql ==> r == sql
    ensures '`' !in sql ==> DropTicks(r) == sql
    ensures r != sql <==> '`' !in sql && HasTableRef(sql)
  {
    TableRefAnchored();
    SubAllOnlyInsertsTicks(sql, TableRefAt);
    DropTicksSpec(sql);
    if '`' !in sql && HasTableRef(sql) then
      SubAllWithMatch(sql, TableRefAt);
      Wrap(sql)
    else sql
  }

  /** `s` with every backtick removed. */
  function DropTicks(s: string): string {
    if s == "" then ""
    else if s[0] == '`' then DropTicks(s[1..])
    else [s[0]] + DropTicks(s[1..])
  }

  /** Removing backticks leaves none, and leaves backtick-free text alone. */
  lemma {:induction false} DropTicksSpec(s: string)
    ensures '`' !in DropTicks(s)
    ensures '`' !in s ==> DropTicks(s) == s
    decreases |s|
  {
    if s != "" {
      DropTicksSpec(s[1..]);
      if s[0] != '`' {
        assert s == [s[0]] + s[1..];
      }
    }
  }

  lemma {:induction false} DropTicksAppend(x: string, y: string)
    ensures DropTicks(x + y) == DropTicks(x) + DropTicks(y)
    decreases |x|
  {
    if x == "" {
      assert x + y == y;
    } else {
      assert (x + y)[1..] == x[1..] + y;
      DropTicksAppend(x[1..], y);
    }
  }

  lemma DropTicksTick(x: string, z: string)
    ensures DropTicks(x + "`" + z) == DropTicks(x + z)
  {
    assert x + "`" + z == x + ("`" + z);
    DropTicksAppend(x, "`" + z);
    assert ("`" + z)[1..] == z;
    DropTicksAppend(x, z);
  }

  lemma DropTicksAround(x: string, y: string, z: string)
    ensures DropTicks(x + "`" + y + "`" + z) == DropTicks(x + y + z)
  {
    DropTicksTick(x + "`" + y, z);
    assert x + "`" + y + z == x + "`" + (y + z);
    DropTicksTick(x, y + z);
    assert x + (y + z) == x + y + z;
  }

  lemma DropTicksWrapped(x: string, y: string, r: string, z: string)
    requires DropTicks(z) == DropTicks(r)
    ensures DropTicks(x + "`" + y + "`" + z) == DropTicks(x + y + r)
  {
    DropTicksAround(x, y, z);
    DropTicksAppend(x + y, z);
    DropTicksAppend(x + y, r);
  }

  lemma SplitThree(s: string, a: nat, d: nat)
    requires a <= d <= |s|
    ensures s == s[..a] + s[a..d] + s[d..]
  {
  }

  lemma DropTicksCopied(s: string, z: string)
    requires s != "" && DropTicks(z) == DropTicks(s[1..])
    ensures DropTicks([s[0]] + z) == DropTicks(s)
  {
    DropTicksAppend([s[0]], z);
    DropTicksAppend([s[0]], s[1..]);
    assert s == [s[0]] + s[1..];
  }

  /** Substituting only inserts backticks: removing them gives back what
      removing them from the input gives. */
  lemma {:induction false} SubAllOnlyInsertsTicks(s: string, at: Matcher)
    requires Anchored(at)
    ensures DropTicks(SubAll(s, at)) == DropTicks(s)
    decreases |s|
  {
    if s != "" {
      match at(s)
      case Some((a, d)) =>
        var z := SubAll(s[d..], at);
        assert SubAll(s, at) == s[..a] + "`" + s[a..d] + "`" + z;
        SubAllOnlyInsertsTicks(s[d..], at);
        DropTicksWrapped(s[..a], s[a..d], s[d..], z);
        SplitThree(s, a, d);
      case None =>
        var z := SubAll(s[1..], at);
        assert SubAll(s, at) == [s[0]] + z;
        SubAllOnlyInsertsTicks(s[1..], at);
        DropTicksCopied(s, z);
    }
  }

  /** Where the pattern matches, substituting leaves a backtick behind. */
  lemma {:induction false} SubAllWithMatch(s: string, at: Matcher)
    requires Anchored(at) && Found(s, at)
    ensures '`' in SubAll(s, at)
    decreases |s|
  {
    match at(s)
    case Some((a, d)) =>
      var r := s[..a] + "`" + s[a..d] + "`" + SubAll(s[d..], at);
      assert SubAll(s, at) == r;
      assert r[a] == '`';
    case None =>
      SubAllWithMatch(s[1..], at);
      assert SubAll(s, at) == [s[0]] + SubAll(s[1..], at);
  }

  /** Applying the backtick step twice is applying it once. */
  lemma BacktickIdempotent(sql: string)
    ensures Backtick(Backtick(sql)) == Backtick(sql)
  {
    DropTicksSpec(Backtick(sql));
  }

  /** Positions where no match starts are copied as they are. */
  lemma {:induction false} SubAllSkip(pre: string, t: string, at: Matcher)
    requires Anchored(at)
    requires forall k :: 0 <= k < |pre| ==> at((pre + t)[k..]).None?
    ensures SubAll(pre + t, at) == pre + SubAll(t, at)
    decreases |pre|
  {
    if pre == [] {
      assert pre + t == t;
    } else {
      var s := pre + t;
      var rest := pre[1..] + t;
      assert s[0..] == s;
      assert at(s).None?;
      assert s[1..] == rest;
      assert SubAll(s, at) == [s[0]] + SubAll(rest, at);
      forall k | 0 <= k < |pre[1..]|
        ensures at(rest[k..]).None?
      {
        assert rest[k..] == s[k + 1..];
      }
      SubAllSkip(pre[1..], t, at);
      assert s[0] == pre[0];
      ConsSplit(pre, SubAll(t, at));
    }
  }

  lemma ConsSplit(x: string, y: string)
    requires |x| > 0
    ensures [x[0]] + (x[1..] + y) == x + y
  {
    assert [x[0]] + x[1..] == x;
  }

  /** A match found in `t` is found in any text that ends with `t`. */
  lemma {:induction false} FoundAfter(pre: string, t: string, at: Matcher)
    requires Found(t, at)
    ensures Found(pre + t, at)
    decreases |pre|
  {
    if pre == [] {
      assert pre + t == t;
    } else {
      FoundAfter(pre[1..], t, at);
      assert (pre + t)[1..] == pre[1..] + t;
    }
  }

  /** `\w+[-\w]*`: a word character, then word characters and hyphens. */
  predicate IsIdentRun(s: string) {
    |s| > 0 && IsWordChar(s[0]) && forall k :: 0 <= k < |s| ==> IsIdentChar(s[k])
  }

  /** `\w+`. */
  predicate IsWordRun(s: string) {
    |s| > 0 && forall k :: 0 <= k < |s| ==> IsWordChar(s[k])
  }

  /** `p.d.t` built from its three runs has the identifier shape wherever it
      ends a text. */
  lemma IdentAfter(x: string, p: string, d: string, tb: string)
    requires IsIdentRun(p) && IsWordRun(d) && IsWordRun(tb)
    ensures var s := x + (p + "." + d + "." + tb);
            IdentShape(s, |x|, |s|)
  {
    IdentOfParts(p, d, tb);
    IdentShiftAt(x, p + "." + d + "." + tb, |p|, |p| + 1 + |d|);
  }

  /** An identifier of the right shape keeps it at the end of a longer text. */
  lemma IdentShiftAt(x: string, id: string, b: nat, c: nat)
    requires 0 < b && b + 1 < c && c + 1 < |id| && id[b] == '.' && id[c] == '.'
    requires IsWordChar(id[0])
    requires forall k :: 0 <= k < b ==> IsIdentChar(id[k])
    requires forall k :: b < k < c ==> IsWordChar(id[k])
    requires forall k :: c < k < |id| ==> IsWordChar(id[k])
    ensures IdentShape(x + id, |x|, |x| + |id|)
  {
    var s := x + id;
    var n := |x|;
    assert forall k :: n <= k < |s| ==> s[k] == id[k - n];
    assert s[n + b] == '.' && s[n + c] == '.' && IsWordChar(s[n]);
    assert forall k :: n <= k < n + b ==> IsIdentChar(s[k]);
    assert forall k :: n + b < k < n + c ==> IsWordChar(s[k]);
    assert forall k :: n + c < k < n + |id| ==> IsWordChar(s[k]);
  }

  /** Where the dots of `p.d.t` are, and what lies between them. */
  lemma IdentOfParts(p: string, d: string, tb: string)
    requires IsIdentRun(p) && IsWordRun(d) && IsWordRun(tb)
    ensures var id := p + "." + d + "." + tb;
            var b := |p|;
            var c := |p| + 1 + |d|;
            && 0 < b && b + 1 < c && c + 1 < |id| && id[b] == '.' && id[c] == '.'
            && IsWordChar(id[0])
            && (forall k :: 0 <= k < b ==> IsIdentChar(id[k]))
            && (forall k :: b < k < c ==> IsWordChar(id[k]))
            && (forall k :: c < k < |id| ==> IsWordChar(id[k]))
  {
    var u := p + "." + d;
    var id := u + "." + tb;
    var b := |p|;
    var c := |p| + 1 + |d|;
    assert forall k :: 0 <= k < |u| ==> id[k] == u[k];
    assert forall k :: 0 <= k < b ==> u[k] == p[k];
    assert forall k :: b < k < c ==> u[k] == d[k - b - 1];
    assert forall k :: c < k < |id| ==> id[k] == tb[k - c - 1];
    assert u[b] == '.' && id[c] == '.';
  }

  /** Such an identifier holds no backtick. */
  lemma NoTickInParts(p: string, d: string, tb: string)
    requires IsIdentRun(p) && IsWordRun(d) && IsWordRun(tb)
    ensures '`' !in p + "." + d + "." + tb
  {
    assert forall k :: 0 <= k < |p| ==> p[k] != '`';
    assert forall k :: 0 <= k < |d| ==> d[k] != '`';
    assert forall k :: 0 <= k < |tb| ==> tb[k] != '`';
  }

  /** The table reference after `FROM` in SQL of the form
      `<pre>FROM<blanks><p>.<d>.<tb>`, where `pre` has no `f` in either case
      and no backtick, is wrapped in backticks and nothing else changes: the
      case of one clause in `BacktickWrapsEvery`. */
  lemma BacktickWrapsReference(pre: string, ws: string, p: string, d: string, tb: string)
    requires forall k :: 0 <= k < |pre| ==> Lower(pre[k]) != 'f' && pre[k] != '`'
    requires |ws| > 0 && forall k :: 0 <= k < |ws| ==> IsSpace(ws[k])
    requires IsIdentRun(p) && IsWordRun(d) && IsWordRun(tb)
    ensures var id := p + "." + d + "." + tb;
            Backtick(pre + "FROM" + ws + id) == pre + "FROM" + ws + "`" + id + "`"
  {
    var c := Clause(pre, ws, p, d, tb);
    assert Filler(pre);
    BacktickWrapsEvery([c], "");
    OneClause(c);
  }

  lemma OneClause(c: Clause)
    ensures Clauses([c], "") == c.pre + "FROM" + c.ws + Ident(c)
    ensures ClausesTicked([c], "") == c.pre + "FROM" + c.ws + "`" + Ident(c) + "`"
  {
    assert Clauses([c], "") == ClauseText(c) + "";
    assert ClausesTicked([c], "") == ClauseTicked(c) + "";
  }

  /** `FROM` and a run of blanks: the keyword in any case, then whitespace. */
  lemma FromBlanks(ws: string)
    requires |ws| > 0 && forall k :: 0 <= k < |ws| ==> IsSpace(ws[k])
    ensures var x := "FROM" + ws;
            && 4 < |x| && StartsWithCI(x, "from")
            && forall k :: 4 <= k < |x| ==> IsSpace(x[k])
  {
    var x := "FROM" + ws;
    assert x[..4] == "FROM";
    assert forall k :: 4 <= k < |x| ==> x[k] == ws[k - 4];
  }

  lemma TableRefShapeJoin(x: string, id: string)
    requires 4 < |x| && StartsWithCI(x, "from")
    requires forall k :: 4 <= k < |x| ==> IsSpace(x[k])
    requires IdentShape(x + id, |x|, |x| + |id|)
    ensures TableRefShape(x + id, |x|, |x + id|)
  {
    var t := x + id;
    assert t[..4] == x[..4];
    assert forall k :: 4 <= k < |x| ==> t[k] == x[k];
  }

  /** No match starts at a character that is not `f` in either case. */
  lemma NoMatchBefore(pre: string, t: string)
    requires forall k :: 0 <= k < |pre| ==> Lower(pre[k]) != 'f'
    ensures forall k :: 0 <= k < |pre| ==> TableRefAt((pre + t)[k..]).None?
  {
    var s := pre + t;
    forall k | 0 <= k < |pre|
      ensures TableRefAt(s[k..]).None?
    {
      assert s[k..][0] == pre[k];
      if 4 <= |s[k..]| {
        assert LowerStr(s[k..][..4])[0] == Lower(pre[k]);
      }
    }
  }

  lemma NoTicks(pre: string, ws: string, id: string)
    requires forall k :: 0 <= k < |pre| ==> pre[k] != '`'
    requires forall k :: 0 <= k < |ws| ==> IsSpace(ws[k])
    requires '`' !in id
    ensures '`' !in pre + ("FROM" + ws + id)
  {
    assert '`' !in ws by {
      assert forall k :: 0 <= k < |ws| ==> ws[k] != '`';
    }
    assert '`' !in pre by {
      assert forall k :: 0 <= k < |pre| ==> pre[k] != '`';
    }
  }

  // ---------------------------------------------------------------------------
  // Several table references

  lemma {:induction false} SkipWordStops(s: string, i: nat, j: nat)
    requires i <= j <= |s|
    requires forall k :: i <= k < j ==> IsWordChar(s[k])
    requires j == |s| || !IsWordChar(s[j])
    ensures SkipIdent(s, i, false) == j
    decreases j - i
  {
    if i < j {
      SkipWordStops(s, i + 1, j);
    }
  }

  /** The steps of a match that reaches the end of `t`. */
  lemma TableRefAtSteps(t: string) returns (a: nat, b: nat, c: nat)
    requires TableRefAt(t).Some? && TableRefAt(t).value.1 == |t|
    ensures StartsWithCI(t, "from") && 4 < a < b < |t| && IsWordChar(t[a]) && t[b] == '.'
    ensures b + 1 < c < |t| && t[c] == '.'
    ensures SkipSpaces(t, 4) == a && (forall k :: 4 <= k < a ==> IsSpace(t[k]))
    ensures SkipIdent(t, a, true) == b && (forall k :: a <= k < b ==> IsIdentChar(t[k]))
    ensures SkipIdent(t, b + 1, false) == c && (forall k :: b + 1 <= k < c ==> IsIdentChar(t[k]) && IsWordChar(t[k]))
    ensures forall k :: c + 1 <= k < |t| ==> IsWordChar(t[k])
  {
    a := SkipSpaces(t, 4);
    b := SkipIdent(t, a, true);
    c := SkipIdent(t, b + 1, false);
    assert IdentEnd(t, a) == Some(|t|);
  }

  /** The matcher's steps, given where each of them stops. */
  lemma TableRefAtFrom(s: string, a: nat, b: nat, c: nat, d: nat)
    requires StartsWithCI(s, "from") && 4 < a < |s| && IsWordChar(s[a])
    requires SkipSpaces(s, 4) == a
    requires SkipIdent(s, a, true) == b && b < |s| && s[b] == '.'
    requires SkipIdent(s, b + 1, false) == c && c != b + 1 && c < |s| && s[c] == '.'
    requires SkipIdent(s, c + 1, false) == d && d != c + 1
    ensures TableRefAt(s) == Some((a, d))
  {
  }

  /** A reference that runs to the end of `t` is matched the same way when
      text follows it, as long as that text does not continue its last word
      run: the regular expression's last `\w+` stops where `t` ends. */
  lemma TableRefAtExtend(t: string, post: string)
    requires TableRefAt(t).Some? && TableRefAt(t).value.1 == |t|
    requires post == "" || !IsWordChar(post[0])
    ensures TableRefAt(t + post) == TableRefAt(t)
  {
    var a, b, c := TableRefAtSteps(t);
    var s := t + post;
    assert s[..4] == t[..4];
    assert s[a] == t[a] && s[b] == t[b] && s[c] == t[c];
    assert !IsIdentChar(s[b]) && !IsIdentChar(s[c]);
    SkipSpacesStops(s, 4, a);
    SkipIdentStops(s, a, b, true);
    SkipIdentStops(s, b + 1, c, false);
    SkipWordStops(s, c + 1, |t|);
    TableRefAtFrom(s, a, b, c, |t|);
  }

  /** One clause of a query: text without a match, `FROM`, blanks and a
      `p.d.t` table identifier. */
  datatype Clause = Clause(pre: string, ws: string, p: string, d: string, tb: string)

  function Ident(c: Clause): string {
    c.p + "." + c.d + "." + c.tb
  }

  /** The clause as written, and as it reads with the identifier in backticks. */
  function ClauseText(c: Clause): string {
    c.pre + "FROM" + c.ws + Ident(c)
  }

  function ClauseTicked(c: Clause): string {
    c.pre + "FROM" + c.ws + "`" + Ident(c) + "`"
  }

  /** The clauses one after another, then a tail. */
  function Clauses(cs: seq<Clause>, tail: string): string
    decreases |cs|
  {
    if cs == [] then tail else ClauseText(cs[0]) + Clauses(cs[1..], tail)
  }

  /** The same text with every table identifier in backticks. */
  function ClausesTicked(cs: seq<Clause>, tail: string): string
    decreases |cs|
  {
    if cs == [] then tail else ClauseTicked(cs[0]) + ClausesTicked(cs[1..], tail)
  }

  /** Text in which no match can start and which holds no backtick. */
  predicate Filler(x: string) {
    forall k :: 0 <= k < |x| ==> Lower(x[k]) != 'f' && x[k] != '`'
  }

  /** A clause whose parts have their shapes. */
  predicate GoodClause(c: Clause) {
    && Filler(c.pre)
    && |c.ws| > 0 && (forall k :: 0 <= k < |c.ws| ==> IsSpace(c.ws[k]))
    && IsIdentRun(c.p) && IsWordRun(c.d) && IsWordRun(c.tb)
  }

  /** What follows an identifier does not continue its last word run. */
  predicate Separated(x: string) {
    x == "" || !IsWordChar(x[0])
  }

  /** Well-formed clauses: every clause has its shape, every clause after the
      first starts with a character that ends the identifier before it, and so
      does the tail, which holds no match and no backtick. */
  predicate GoodClauses(cs: seq<Clause>, tail: string) {
    && (forall i :: 0 <= i < |cs| ==> GoodClause(cs[i]))
    && (forall i :: 0 < i < |cs| ==> cs[i].pre != "" && !IsWordChar(cs[i].pre[0]))
    && Filler(tail) && Separated(tail)
  }

  lemma GoodClausesTail(cs: seq<Clause>, tail: string)
    requires |cs| > 0 && GoodClauses(cs, tail)
    ensures GoodClauses(cs[1..], tail)
    ensures Separated(Clauses(cs[1..], tail))
  {
    var rest := cs[1..];
    assert forall i :: 0 <= i < |rest| ==> rest[i] == cs[i + 1];
    if rest != [] {
      assert Clauses(rest, tail) == ClauseText(rest[0]) + Clauses(rest[1..], tail);
      assert Clauses(rest, tail)[0] == rest[0].pre[0];
    }
  }

  /** A clause's reference starts after the blanks and runs to the clause's end. */
  lemma ClauseMatched(c: Clause)
    requires GoodClause(c)
    ensures TableRefAt("FROM" + c.ws + Ident(c)) == Some((4 + |c.ws|, |"FROM" + c.ws + Ident(c)|))
  {
    FromRefMatched(c.ws, c.p, c.d, c.tb);
  }

  lemma FromRefMatched(ws: string, p: string, d: string, tb: string)
    requires |ws| > 0 && forall k :: 0 <= k < |ws| ==> IsSpace(ws[k])
    requires IsIdentRun(p) && IsWordRun(d) && IsWordRun(tb)
    ensures var t := "FROM" + ws + (p + "." + d + "." + tb);
            TableRefAt(t) == Some((4 + |ws|, |t|))
  {
    var x := "FROM" + ws;
    var id := p + "." + d + "." + tb;
    FromBlanks(ws);
    IdentAfter(x, p, d, tb);
    TableRefShapeJoin(x, id);
    TableRefAtComplete(x + id, |x|, |x + id|);
  }

  /** A clause holds no backtick. */
  lemma ClauseNoTick(c: Clause)
    requires GoodClause(c)
    ensures '`' !in ClauseText(c)
  {
    NoTickInParts(c.p, c.d, c.tb);
    NoTicks(c.pre, c.ws, Ident(c));
    assert c.pre + ("FROM" + c.ws + Ident(c)) == ClauseText(c);
  }

  /** One clause and what follows it: the clause's reference is wrapped and
      the substitution goes on with the rest. */
  lemma SubAllClause(c: Clause, post: string)
    requires GoodClause(c) && Separated(post)
    ensures Anchored(TableRefAt)
    ensures SubAll(ClauseText(c) + post, TableRefAt) == ClauseTicked(c) + SubAll(post, TableRefAt)
    ensures Found(ClauseText(c) + post, TableRefAt)
  {
    ClauseFacts(c, post);
    TableRefAnchored();
    SubAllRef(c.pre, "FROM" + c.ws, Ident(c), post, TableRefAt);
    ClauseRegroup(c, post, SubAll(post, TableRefAt));
  }

  /** The matcher on a clause and what follows it: a match right after the
      text before `FROM`, and none inside that text. */
  lemma ClauseFacts(c: Clause, post: string)
    requires GoodClause(c) && Separated(post)
    ensures var x := "FROM" + c.ws;
            && TableRefAt(x + Ident(c) + post) == Some((|x|, |x + Ident(c)|))
            && forall k :: 0 <= k < |c.pre| ==> TableRefAt((c.pre + (x + Ident(c) + post))[k..]).None?
  {
    var x := "FROM" + c.ws;
    ClauseMatched(c);
    TableRefAtExtend(x + Ident(c), post);
    NoMatchBefore(c.pre, x + Ident(c) + post);
  }

  lemma ClauseRegroup(c: Clause, post: string, z: string)
    ensures ClauseText(c) + post == c.pre + ("FROM" + c.ws + Ident(c) + post)
    ensures ClauseTicked(c) + z == c.pre + ("FROM" + c.ws + "`" + Ident(c) + "`" + z)
  {
  }

  /** A match `x + id` at the start of `u`, after text where no match starts:
      the text before it is copied, `id` is wrapped, and the substitution goes
      on after the match. */
  lemma SubAllRef(pre: string, x: string, id: string, post: string, at: Matcher)
    requires Anchored(at)
    requires at(x + id + post) == Some((|x|, |x + id|))
    requires forall k :: 0 <= k < |pre| ==> at((pre + (x + id + post))[k..]).None?
    ensures SubAll(pre + (x + id + post), at) == pre + (x + "`" + id + "`" + SubAll(post, at))
    ensures Found(pre + (x + id + post), at)
  {
    var u := x + id + post;
    SubAllSkip(pre, u, at);
    assert u[..|x|] == x && u[|x|..|x + id|] == id && u[|x + id|..] == post;
    assert SubAll(u, at) == x + "`" + id + "`" + SubAll(post, at);
    FoundAfter(pre, u, at);
  }

  /** A tail without matches is copied as it is. */
  lemma SubAllFiller(x: string)
    requires Filler(x)
    ensures Anchored(TableRefAt)
    ensures SubAll(x, TableRefAt) == x
  {
    TableRefAnchored();
    NoMatchBefore(x, "");
    assert x + "" == x;
    SubAllSkip(x, "", TableRefAt);
  }

  /** The substitution wraps the identifier of every clause, in order, and
      copies everything else. */
  lemma {:induction false} SubAllClauses(cs: seq<Clause>, tail: string)
    requires GoodClauses(cs, tail)
    ensures Anchored(TableRefAt)
    ensures SubAll(Clauses(cs, tail), TableRefAt) == ClausesTicked(cs, tail)
    ensures cs != [] ==> Found(Clauses(cs, tail), TableRefAt)
    decreases |cs|
  {
    if cs == [] {
      SubAllFiller(tail);
    } else {
      GoodClausesTail(cs, tail);
      SubAllClauses(cs[1..], tail);
      SubAllClause(cs[0], Clauses(cs[1..], tail));
    }
  }

  /** Well-formed clauses hold no backtick. */
  lemma {:induction false} ClausesNoTick(cs: seq<Clause>, tail: string)
    requires GoodClauses(cs, tail)
    ensures '`' !in Clauses(cs, tail)
    decreases |cs|
  {
    if cs == [] {
      assert forall k :: 0 <= k < |tail| ==> tail[k] != '`';
    } else {
      GoodClausesTail(cs, tail);
      ClausesNoTick(cs[1..], tail);
      ClauseNoTick(cs[0]);
    }
  }

  /** SQL made of clauses `... FROM p.d.t` gets the identifier of every clause
      wrapped in backticks, and nothing else changes. */
  lemma BacktickWrapsEvery(cs: seq<Clause>, tail: string)
    requires GoodClauses(cs, tail)
    ensures Backtick(Clauses(cs, tail)) == ClausesTicked(cs, tail)
  {
    SubAllClauses(cs, tail);
    ClausesNoTick(cs, tail);
  }
}

=== FILE: executor.dfy ===
/**
 The subprocess boundary (`execute_subprocess` in multi_tool_agent/command_executor.py).
 Running a process, decoding JSON and rendering values are collaborators the
 model cannot see; they enter as the function-valued fields of a `Host`. What
 is modelled is how their outcome is turned into the unified result shape.
 */
module Executor {
  import opened Wrappers
  import opened Text

  /** A value `json.loads` can produce. Numbers keep the text Python's `str()`
      prints for them; an object keeps its members in document order, as the
      dictionary `json.loads` builds does, so printing it can depend on that order. */
  datatype Json =
    | JNull
    | JBool(b: bool)
    | JNum(text: string)
    | JStr(s: string)
    | JArray(items: seq<Json>)
    | JObject(fields: seq<(string, Json)>)

  /** `d.get(key)` on the dictionary built from an object's members: the value
      of the last member with that key, a later duplicate overriding an earlier one. */
  function Lookup(fields: seq<(string, Json)>, key: string): (r: Option<Json>)
    ensures r.None? <==> forall i :: 0 <= i < |fields| ==> fields[i].0 != key
    ensures r.Some? ==>
              exists i :: 0 <= i < |fields| && fields[i] == (key, r.value) &&
                forall k :: i < k < |fields| ==> fields[k].0 != key
    decreases |fields|
  {
    if fields == [] then None
    else if fields[|fields| - 1].0 == key then Some(fields[|fields| - 1].1)
    else Lookup(fields[..|fields| - 1], key)
  }

  /** What a finished process left behind. */
  datatype Completion = Completion(exitCode: int, stdout: string, stderr: string)

  /** The `result` of a successful execution: decoded JSON, or the stripped text. */
  datatype Value = Parsed(json: Json) | Plain(text: string)

  /** `{status: success, result}` or `{status: error, error_message, exit_code?}`. */
  datatype ExecResult =
    | Success(value: Value)
    | Error(message: string, exitCode: Option<int>)

  /** The collaborators of the tool layer, fixed for a whole run.
      - `gcloudPath`, `bqPath`: the executables (read from the environment);
      - `tokenize`: `shlex.split`;
      - `run`: `subprocess.run(args, capture_output=True, text=True)`;
      - `parseJson`: `json.loads`, `None` where it raises `JSONDecodeError`;
      - `failureText`: `str()` of the `CalledProcessError` for the arguments and exit code;
      - `dumps`: `json.dumps(value, indent=2)`;
      - `repr`: `str()` of a list or dict. */
  datatype Host = Host(
    gcloudPath: string,
    bqPath: string,
    tokenize: string -> seq<string>,
    run: seq<string> -> Completion,
    parseJson: string -> Option<Json>,
    failureText: (seq<string>, int) -> string,
    dumps: Json -> string,
    repr: Json -> string)

  /** The error text of a failed process: its stripped stderr when stderr is not
      empty (even if it is only whitespace), else the exception's own text. */
  function FailureMessage(args: seq<string>, c: Completion, host: Host): string {
    if c.stderr != "" then Strip(c.stderr) else host.failureText(args, c.exitCode)
  }

  /** How `execute_subprocess` shapes a finished process into a result. */
  function Shape(args: seq<string>, c: Completion, host: Host): (r: ExecResult)
    ensures r.Success? <==> c.exitCode == 0
    ensures r.Success? && host.parseJson(c.stdout).Some? ==>
              r.value == Parsed(host.parseJson(c.stdout).value)
    ensures r.Success? && host.parseJson(c.stdout).None? ==>
              r.value == Plain(Strip(c.stdout))
    ensures r.Error? ==> r.exitCode == Some(c.exitCode)
    ensures r.Error? && c.stderr != "" ==> r.message == Strip(c.stderr)
    ensures r.Error? && c.stderr == "" ==> r.message == host.failureText(args, c.exitCode)
  {
    if c.exitCode == 0 then
      match host.parseJson(c.stdout)
      case Some(j) => Success(Parsed(j))
      case None => Success(Plain(Strip(c.stdout)))
    else
      Error(FailureMessage(args, c, host), Some(c.exitCode))
  }

  /** `execute_subprocess(args)`: the process runs once, and its exit status
      alone decides between success and error. */
  function Execute(args: seq<string>, host: Host): (r: ExecResult)
    ensures r.Success? <==> host.run(args).exitCode == 0
    ensures r.Error? ==> r.exitCode == Some(host.run(args).exitCode)
  {
    Shape(args, host.run(args), host)
  }

  /** Text the executor hands back is already stripped: plain output and the
      error message taken from stderr neither start nor end with whitespace,
      so stripping them again changes nothing. */
  lemma ShapeStripped(args: seq<string>, c: Completion, host: Host)
    ensures var r := Shape(args, c, host);
            && (r.Success? && r.value.Plain? ==> Strip(r.value.text) == r.value.text)
            && (r.Error? && c.stderr != "" ==> Strip(r.message) == r.message)
  {
    StripIdempotent(c.stdout);
    StripIdempotent(c.stderr);
  }
}

=== FILE: gcptool.dfy ===
/**
 `gcp_tool` and `_format_list_response` in multi_tool_agent/gcp_tool.py. The
 tool is split into what a branch decides from the query alone (an `Action`: the
 command it issues and how it reshapes the result, or an answer that runs
 nothing) and how the plan is carried out against the `Host`. The texts the
 describe-project and billing-link regular expressions capture are given as
 `Captures`.
 */
module GcpTool {
  import opened Wrappers
  import opened Text
  import opened Executor
  import opened Router
  import opened Suggestions
  import opened Intents
  import opened Pattern

  /** The dictionary `gcp_tool` returns, or the exception that escapes it. */
  datatype Response =
    | Report(report: string)                           // {status: success, report}
    | Failure(errorMessage: string, suggested: string) // {status: error, error_message, suggested_commands}
    | Passed(result: ExecResult)                       // the executor's dictionary, returned as it is
    | Raised                                           // `AttributeError` from a listing item

  /** What the describe-project and billing-link patterns capture: group 1 of
      `describe\s+project\s+(.+)`, and groups 1 and 2 of the billing-link pattern. */
  datatype Captures = Captures(describedProject: string, billingAccount: string, billingProject: string)

  /** The listings and their item formatters. */
  datatype ItemKind = ProjectItem | InstanceItem | ServiceItem | RegionItem | ZoneItem
                    | AccountItem | DatasetItem | TableItem

  /** How a branch turns the router's result into its response. */
  datatype Shaping =
    | Echo                    // a direct command: a report of the result, or the error with suggestions
    | AsIs                    // the router's result unchanged
    | Listing(kind: ItemKind, title: string, empty: Option<string>)
      // a formatted listing; `empty` is the branch's own text for an empty list
    | Linked(account: string, project: string)   // the billing-link confirmation

  /** What a branch does. */
  datatype Action =
    | Issue(command: string, shaping: Shaping)   // `execute_gcloud_command(command)`, then reshape
    | ListBucketsDirect                          // `gcloud storage ls --format=gsutil`, bypassing the router
    | Answer(response: Response)                 // a response that runs nothing

  const SuccessPrefix := "Command executed successfully:\n"
  const ErrorPrefix := "Error executing command: "
  const BucketsPrefix := "Here are the available storage buckets:\n"
  const AccountPrefix := "billingAccounts/"
  const NoDatasetMessage := "Please specify a dataset. For example: 'Show BigQuery tables in dataset my_dataset'."
  const NoDatasetSuggestions :=
    "You might want to try these commands:\nbq ls [DATASET_ID]\nbq ls --project=[PROJECT_ID] [DATASET_ID]"

  const NotUnderstoodHead := "I'm not sure how to process your query: '"
  const NotUnderstoodTail :=
    "'. Try asking about listing projects, instances, buckets, regions, zones, services, billing accounts, or BigQuery datasets and tables."

  /** The message for a query no branch handles; it quotes the query. */
  function NotUnderstood(q: string): (m: string)
    ensures Contains(m, q)
  {
    ContainsMiddle(NotUnderstoodHead, q, NotUnderstoodTail);
    NotUnderstoodHead + q + NotUnderstoodTail
  }

  /** `str(v)` (and an f-string field) for a JSON value. */
  function PyStr(v: Json, host: Host): string {
    match v
    case JNull => "None"
    case JBool(b) => if b then "True" else "False"
    case JNum(t) => t
    case JStr(s) => s
    case _ => host.repr(v)
  }

  /** `item.get(key, default)` printed with `str()`. */
  function Get(fields: seq<(string, Json)>, key: string, default: string, host: Host): string {
    match Lookup(fields, key)
    case Some(v) => PyStr(v, host)
    case None => default
  }

  /** The id of a billing account: the last `/`-separated part of its `name`;
      `None` where `.split` is called on something that is not a string. */
  function AccountName(fields: seq<(string, Json)>): Option<string> {
    match Lookup(fields, "name")
    case None => Some("Unknown")
    case Some(JStr(s)) => Some(LastSegment(s, '/'))
    case Some(_) => None
  }

  /** The key whose value leads each listing line. */
  function LeadKey(kind: ItemKind): string {
    match kind
    case AccountItem => "displayName"
    case DatasetItem => "id"
    case TableItem => "tableId"
    case _ => "name"
  }

  /** One line of a listing; `None` where the formatter raises `AttributeError`
      (an item that is not a dictionary, or an account whose name is not a
      string). A line is `- `, the item's leading value (`Unknown` when it is
      missing), then the rest of the line. */
  function FormatItem(kind: ItemKind, item: Json, host: Host): (r: Option<string>)
    ensures r.Some? ==> item.JObject?
    ensures kind != AccountItem ==> (r.Some? <==> item.JObject?)
    ensures kind == AccountItem && item.JObject? ==>
              (r.Some? <==> Lookup(item.fields, "name").None? || Lookup(item.fields, "name").value.JStr?)
    ensures r.Some? ==> StartsWith(r.value, "- " + Get(item.fields, LeadKey(kind), "Unknown", host))
  {
    if !item.JObject? then None
    else
      var lead := "- " + Get(item.fields, LeadKey(kind), "Unknown", host);
      match ItemTail(kind, item.fields, host)
      case None => None
      case Some(tail) =>
        StartsWithAppend(lead, tail, lead);
        Some(lead + tail)
  }

  /** What follows the leading value in a line of each listing. */
  function ItemTail(kind: ItemKind, f: seq<(string, Json)>, host: Host): Option<string> {
    match kind
    case ProjectItem => Some(" (ID: " + Get(f, "projectId", "Unknown", host) + ")")
    case InstanceItem =>
      Some(" (" + Get(f, "zone", "Unknown", host) + ", " + Get(f, "status", "Unknown", host) + ")")
    case ServiceItem => Some("")
    case RegionItem => Some(" (" + Get(f, "status", "Unknown", host) + ")")
    case ZoneItem =>
      Some(" (" + Get(f, "region", "Unknown", host) + ", " + Get(f, "status", "Unknown", host) + ")")
    case AccountItem =>
      (match AccountName(f)
       case None => None
       case Some(id) => Some(" (ID: " + id + ", Open: " + Get(f, "open", "False", host) + ")"))
    case DatasetItem => Some(" (" + Get(f, "location", "Unknown", host) + ")")
    case TableItem => Some(" (" + Get(f, "type", "TABLE", host) + ")")
  }

  /** The formatted lines of all items, in order; `None` as soon as one item
      cannot be formatted. */
  function FormatItems(kind: ItemKind, items: seq<Json>, host: Host): (r: Option<seq<string>>)
    ensures r.Some? <==> forall i :: 0 <= i < |items| ==> FormatItem(kind, items[i], host).Some?
    ensures r.Some? ==> |r.value| == |items|
    ensures r.Some? ==> forall i :: 0 <= i < |items| ==> r.value[i] == FormatItem(kind, items[i], host).value
    decreases |items|
  {
    if items == [] then Some([])
    else
      match FormatItem(kind, items[0], host)
      case None => None
      case Some(line) =>
        match FormatItems(kind, items[1..], host)
        case None => None
        case Some(lines) => Some([line] + lines)
  }

  /** `_format_list_response` once the lines are formatted: for lines without
      line feeds, the answer splits back into the title line and the item
      lines, in input order. */
  function FormatList(lines: seq<string>, title: string): (r: string)
    ensures lines == [] ==> StartsWith(r, "No ") && Contains(r, LowerStr(title))
    ensures lines != [] ==> StartsWith(r, title + ":\n")
    ensures lines != [] && '\n' !in title && (forall i :: 0 <= i < |lines| ==> '\n' !in lines[i]) ==>
              SplitOn(r, '\n') == [title + ":"] + lines
  {
    if lines == [] then
      var r := "No " + LowerStr(title) + " found.";
      ContainsMiddle("No ", LowerStr(title), " found.");
      assert r[..3] == "No ";
      r
    else
      ListingLines(lines, title);
      title + ":\n" + Join(lines, "\n")
  }

  /** The title line and the joined item lines split back apart. */
  lemma ListingLines(lines: seq<string>, title: string)
    requires |lines| > 0
    ensures var r := title + ":\n" + Join(lines, "\n");
            && StartsWith(r, title + ":\n")
            && ('\n' !in title && (forall i :: 0 <= i < |lines| ==> '\n' !in lines[i]) ==>
                  SplitOn(r, '\n') == [title + ":"] + lines)
  {
    StartsWithAppend(title + ":\n", Join(lines, "\n"), title + ":\n");
    if '\n' !in title && (forall i :: 0 <= i < |lines| ==> '\n' !in lines[i]) {
      ListingSplits(lines, title);
    }
  }

  lemma ListingSplits(lines: seq<string>, title: string)
    requires |lines| > 0
    requires '\n' !in title
    requires forall i :: 0 <= i < |lines| ==> '\n' !in lines[i]
    ensures SplitOn(title + ":\n" + Join(lines, "\n"), '\n') == [title + ":"] + lines
  {
    var xs := [title + ":"] + lines;
    assert xs[1..] == lines;
    assert forall i :: 0 <= i < |xs| ==> '\n' !in xs[i];
    assert Join(xs, "\n") == title + ":" + "\n" + Join(lines, "\n");
    assert title + ":\n" + Join(lines, "\n") == title + ":" + "\n" + Join(lines, "\n");
    SplitJoin(xs, '\n');
  }

  /** The account id the link command uses: a leading `billingAccounts/` makes
      it the part after the last `/`. */
  function AccountId(s: string): string {
    if StartsWith(s, AccountPrefix) then LastSegment(s, '/') else s
  }

  /** Stripping the resource prefix gives the bare id back, and an id without
      the prefix is kept as it is. */
  lemma AccountIdPrefixed(id: string)
    requires '/' !in id
    ensures AccountId(AccountPrefix + id) == id
    ensures !StartsWith(id, AccountPrefix) ==> AccountId(id) == id
  {
    var s := AccountPrefix + id;
    assert s[..|AccountPrefix|] == AccountPrefix;
    var r := LastSegment(s, '/');
    assert s[|AccountPrefix| - 1] == '/';
    assert r == s[|s| - |r|..];
  }

  /** ` in project X` after a title, or nothing. */
  function InProject(project: Option<string>): string {
    match project
    case Some(p) => " in project " + p
    case None => ""
  }

  /** `list services`, with an optional `in project X` qualifier. */
  function ServicesAction(q: string): Action {
    var project := Qualifier(q, "project");
    var command := match project
      case Some(p) => "gcloud services list --project=" + p
      case None => "gcloud services list";
    Issue(command, Listing(ServiceItem, "Available services" + InProject(project), None))
  }

  /** Linking a billing account to a project, from the captured texts. */
  function LinkAction(cap: Captures): Action {
    var account := AccountId(Strip(cap.billingAccount));
    var project := Strip(cap.billingProject);
    Issue("gcloud billing projects link " + project + " --billing-account=" + account,
          Linked(account, project))
  }

  /** `show bigquery datasets`, with an optional `in project X` qualifier. */
  function DatasetsAction(q: string): Action {
    var project := Qualifier(q, "project");
    var command := match project
      case Some(p) => "bq ls --project=" + p
      case None => "bq ls";
    var info := InProject(project);
    Issue(command, Listing(DatasetItem, "BigQuery datasets" + info,
                           Some("No BigQuery datasets found" + info + ".")))
  }

  /** `bq ls` of the dataset, in the project when one was named. */
  function TablesCommand(d: string, project: Option<string>): string {
    match project
    case Some(p) => "bq ls --project=" + p + " " + d
    case None => "bq ls " + d
  }

  /** `show bigquery tables`: needs `in dataset D`, takes an optional `in project X`. */
  function TablesAction(q: string): Action {
    match Qualifier(q, "dataset")
    case None => Answer(Failure(NoDatasetMessage, NoDatasetSuggestions))
    case Some(d) =>
      var project := Qualifier(q, "project");
      var info := InProject(project);
      Issue(TablesCommand(d, project), Listing(TableItem, "Tables in dataset " + d + info,
                             Some("No tables found in dataset " + d + info + ".")))
  }

  /** What branch `i` of `gcp_tool` does with the query. The `gcloud billing `
      branch is left out: no query reaches it (`BillingAliasUnreachable`). */
  function Branch(i: Intent, q: string, cap: Captures): (r: Action)
    requires i != BillingAlias
    ensures r.ListBucketsDirect? <==> i == ListBuckets
    ensures r.Answer? <==> i == Unrecognized || (i == ListTables && Qualifier(q, "dataset").None?)
    ensures r.Answer? ==> r.response.Failure?
    ensures r.Issue? && r.shaping.Echo? <==> i == Direct
    ensures r.Issue? && r.shaping.AsIs? <==> i == DescribeProject
    ensures r.Issue? && r.shaping.Linked? <==> i == LinkBilling
  {
    match i
    case Direct => Issue(q, Echo)
    case ListProjects =>
      Issue("gcloud projects list", Listing(ProjectItem, "Available GCP projects", None))
    case ListInstances =>
      Issue("gcloud compute instances list", Listing(InstanceItem, "Available compute instances", None))
    case ListBuckets => ListBucketsDirect
    case DescribeProject => Issue("gcloud projects describe " + Strip(cap.describedProject), AsIs)
    case ListServices => ServicesAction(q)
    case ListRegions =>
      Issue("gcloud compute regions list", Listing(RegionItem, "Available GCP regions", None))
    case ListZones =>
      Issue("gcloud compute zones list", Listing(ZoneItem, "Available GCP zones", None))
    case ListBillingAccounts =>
      Issue("gcloud billing accounts list", Listing(AccountItem, "Available billing accounts", None))
    case LinkBilling => LinkAction(cap)
    case ListDatasets => DatasetsAction(q)
    case ListTables => TablesAction(q)
    case Unrecognized => Answer(Failure(NotUnderstood(q), Suggest(q)))
  }

  /** What `gcp_tool` does with the query: the branch the chain picks. */
  function Decide(q: string, cap: Captures): Action {
    BillingAliasUnreachable(q);
    Branch(Classify(q), q, cap)
  }

  /** A direct command's result as a report, or its error with suggestions. */
  function EchoResponse(r: ExecResult, q: string, host: Host): Response {
    match r
    case Success(Parsed(j)) =>
      Report(SuccessPrefix + (if j.JArray? || j.JObject? then host.dumps(j) else PyStr(j, host)))
    case Success(Plain(t)) => Report(SuccessPrefix + t)
    case Error(m, _) => Failure(ErrorPrefix + m, Suggest(q))
  }

  /** A listing branch's response: a JSON list is formatted, anything else is
      returned as it is. It raises exactly when some item of the list cannot
      be formatted. */
  function ListingResponse(res: ExecResult, kind: ItemKind, title: string, empty: Option<string>, host: Host): (r: Response)
    ensures r.Passed? <==> !(res.Success? && res.value.Parsed? && res.value.json.JArray?)
    ensures r.Passed? ==> r.result == res
    ensures r == Raised <==>
              && res.Success? && res.value.Parsed? && res.value.json.JArray?
              && exists i :: 0 <= i < |res.value.json.items| && FormatItem(kind, res.value.json.items[i], host).None?
    ensures r.Report? || r.Passed? || r == Raised
  {
    if res.Success? && res.value.Parsed? && res.value.json.JArray? then
      var items := res.value.json.items;
      if items == [] && empty.Some? then Report(empty.value)
      else
        match FormatItems(kind, items, host)
        case None => Raised
        case Some(lines) => Report(FormatList(lines, title))
    else Passed(res)
  }

  /** A router result turned into the branch's response. */
  function Reshape(r: ExecResult, shaping: Shaping, q: string, host: Host): Response {
    match shaping
    case Echo => EchoResponse(r, q, host)
    case AsIs => Passed(r)
    case Listing(kind, title, empty) => ListingResponse(r, kind, title, empty, host)
    case Linked(account, project) =>
      if r.Success? then
        Report("Successfully linked billing account '" + account + "' to project '" + project + "'.")
      else Passed(r)
  }

  /** Carrying out an action. */
  function Perform(action: Action, q: string, host: Host): Response {
    match action
    case Issue(command, shaping) => Reshape(Route(command, host), shaping, q, host)
    case ListBucketsDirect =>
      var args := [host.gcloudPath, "storage", "ls", "--format=gsutil"];
      var c := host.run(args);
      if c.exitCode == 0 then Report(BucketsPrefix + Strip(c.stdout))
      else Passed(Error(FailureMessage(args, c, host), Some(c.exitCode)))
    case Answer(response) => response
  }

  /** `gcp_tool(q)`. Only a literal command, a tables query without a dataset
      and an unhandled query answer with an error and suggestions; only a
      listing raises; whatever is returned as it is comes from the buckets
      branch or is exactly the router's result for the issued command. */
  function Tool(q: string, cap: Captures, host: Host): (r: Response)
    ensures r.Failure? ==> Classify(q) in {Direct, ListTables, Unrecognized}
    ensures r.Failure? && Classify(q) == ListTables ==> !Search(QualPat("dataset"), q)
    ensures r == Raised ==> Decide(q, cap).Issue? && Decide(q, cap).shaping.Listing?
    ensures r.Passed? ==>
              || Classify(q) == ListBuckets
              || (Decide(q, cap).Issue? && r.result == Route(Decide(q, cap).command, host))
  {
    BillingAliasUnreachable(q);
    QualifierSearch(q, "dataset");
    PerformOutcomes(Decide(q, cap), q, host);
    Perform(Decide(q, cap), q, host)
  }

  /** What each kind of action can answer: an error only from an echo or a
      ready answer, a raise only from a listing, and a passed-through result
      only from the buckets run or as the router's result for the command. */
  lemma PerformOutcomes(a: Action, q: string, host: Host)
    ensures var r := Perform(a, q, host);
            && (r.Failure? ==> (a.Issue? && a.shaping.Echo?) || (a.Answer? && a.response.Failure?))
            && (r == Raised ==> (a.Issue? && a.shaping.Listing?) || a == Answer(Raised))
            && (r.Passed? ==> a.ListBucketsDirect? || a.Answer? || (a.Issue? && r.result == Route(a.command, host)))
  {
  }

  // ---------------------------------------------------------------------------
  // Properties

  /** A literal command is run through the router. A success is reported after
      the fixed prefix: a JSON list or object as `json.dumps` prints it, any
      other JSON value as `str()` prints it, and plain output as it is. A
      failure carries the router's message after its own prefix, together with
      the suggestions for the query. */
  lemma DirectResponse(q: string, cap: Captures, host: Host)
    requires IsDirect(q)
    ensures var r := Tool(q, cap, host);
            var e := Route(q, host);
            && (r.Report? <==> e.Success?)
            && (e.Success? && e.value.Plain? ==> r == Report(SuccessPrefix + e.value.text))
            && (e.Success? && e.value.Parsed? && (e.value.json.JArray? || e.value.json.JObject?) ==>
                  r == Report(SuccessPrefix + host.dumps(e.value.json)))
            && (e.Success? && e.value.Parsed? && !e.value.json.JArray? && !e.value.json.JObject? ==>
                  r == Report(SuccessPrefix + PyStr(e.value.json, host)))
            && (e.Error? ==> r == Failure(ErrorPrefix + e.message, Suggest(q)))
  {
    DirectFirst(q);
  }

  /** Whatever else it says, a query that asks to list projects and is not a
      literal command issues exactly `gcloud projects list`; one that asks to
      list instances and not projects issues `gcloud compute instances list`. */
  lemma FixedListingCommands(q: string, cap: Captures)
    requires !IsDirect(q)
    ensures Search(ListPat("projects"), q) ==> Decide(q, cap).Issue? && Decide(q, cap).command == "gcloud projects list"
    ensures !Search(ListPat("projects"), q) && Search(ListPat("instances"), q) ==>
              Decide(q, cap).Issue? && Decide(q, cap).command == "gcloud compute instances list"
  {
  }

  /** A non-empty JSON list is reported as the title and one formatted line per
      item, in input order, or raises when some item cannot be formatted. */
  lemma ListingReport(items: seq<Json>, kind: ItemKind, title: string, empty: Option<string>, host: Host)
    requires |items| > 0
    ensures var r := ListingResponse(Success(Parsed(JArray(items))), kind, title, empty, host);
            && (r == Raised <==> exists i :: 0 <= i < |items| && FormatItem(kind, items[i], host).None?)
            && (r != Raised ==>
                  exists lines: seq<string> ::
                    && |lines| == |items|
                    && (forall i :: 0 <= i < |items| ==> lines[i] == FormatItem(kind, items[i], host).value)
                    && r == Report(title + ":\n" + Join(lines, "\n")))
  {
    var fi := FormatItems(kind, items, host);
    if fi.Some? {
      assert ListingResponse(Success(Parsed(JArray(items))), kind, title, empty, host)
          == Report(title + ":\n" + Join(fi.value, "\n"));
    }
  }

  /** An empty JSON list gives the branch's own text when it has one, and
      otherwise `No <title in lower case> found.`. */
  lemma ListingEmpty(kind: ItemKind, title: string, empty: Option<string>, host: Host)
    ensures ListingResponse(Success(Parsed(JArray([]))), kind, title, empty, host) ==
              Report(if empty.Some? then empty.value else "No " + LowerStr(title) + " found.")
  {
  }

  /** Every listing branch issues a command whose result is formatted as a
      listing, except a tables query that names no dataset. */
  lemma ListingBranches(q: string, cap: Captures)
    requires Classify(q) in {ListProjects, ListInstances, ListServices, ListRegions, ListZones,
                             ListBillingAccounts, ListDatasets}
             || (Classify(q) == ListTables && Qualifier(q, "dataset").Some?)
    ensures Decide(q, cap).Issue? && Decide(q, cap).shaping.Listing?
  {
  }

  /** An `in project X` qualifier becomes `--project=X` at the end of the
      services command and ` in project X` at the end of the title; without
      one, the plain command runs. */
  lemma ServicesQualifier(q: string)
    ensures var a := ServicesAction(q);
            && a.Issue? && a.shaping.Listing?
            && (Search(QualPat("project"), q) <==> a.command != "gcloud services list")
            && (Qualifier(q, "project").Some? ==>
                  var x := Qualifier(q, "project").value;
                  a.command == "gcloud services list --project=" + x &&
                  a.shaping.title == "Available services" + (" in project " + x))
  {
    QualifierSearch(q, "project");
    if Qualifier(q, "project").Some? {
      var x := Qualifier(q, "project").value;
      assert |"gcloud services list --project=" + x| > |"gcloud services list"|;
    }
  }

  /** The datasets branch: the qualifier turns into `--project=X`, and an empty
      list gets the branch's own text naming the project. */
  lemma DatasetsQualifier(q: string)
    ensures var a := DatasetsAction(q);
            && a.Issue? && a.shaping.Listing?
            && (Search(QualPat("project"), q) <==> a.command != "bq ls")
            && (Qualifier(q, "project").Some? ==>
                  var x := Qualifier(q, "project").value;
                  a.command == "bq ls --project=" + x &&
                  a.shaping.empty == Some("No BigQuery datasets found" + (" in project " + x) + "."))
  {
    QualifierSearch(q, "project");
    if Qualifier(q, "project").Some? {
      var x := Qualifier(q, "project").value;
      assert |"bq ls --project=" + x| > |"bq ls"|;
    }
  }

  /** A tables query that names no dataset answers with the fixed error and
      suggestions whatever the host does: nothing is run. */
  lemma TablesNeedDataset(q: string, cap: Captures, host: Host, other: Host)
    requires Classify(q) == ListTables
    requires !Search(QualPat("dataset"), q)
    ensures Tool(q, cap, host) == Tool(q, cap, other) == Failure(NoDatasetMessage, NoDatasetSuggestions)
  {
    QualifierSearch(q, "dataset");
  }

  /** A query no branch handles gets an error that quotes it, with the
      suggestions for it, and runs nothing. */
  lemma UnrecognizedResponse(q: string, cap: Captures, host: Host, other: Host)
    requires Classify(q) == Unrecognized
    ensures var r := Tool(q, cap, host);
            && r == Tool(q, cap, other)
            && r.Failure? && Contains(r.errorMessage, q) && r.suggested == Suggest(q)
  {
  }

  /** The billing-link branch links the captured project to the captured
      account, with a leading `billingAccounts/` reduced to the bare id
      (`AccountIdPrefixed`). The confirmation naming both is given exactly when
      the router reports success; otherwise the router's result is returned. */
  lemma LinkBillingResponse(q: string, cap: Captures, host: Host)
    requires Classify(q) == LinkBilling
    ensures var account := AccountId(Strip(cap.billingAccount));
            var project := Strip(cap.billingProject);
            var command := "gcloud billing projects link " + project + " --billing-account=" + account;
            var r := Tool(q, cap, host);
            && Decide(q, cap) == Issue(command, Linked(account, project))
            && (Route(command, host).Success? ==>
                  r == Report("Successfully linked billing account '" + account + "' to project '" + project + "'."))
            && (!Route(command, host).Success? ==> r == Passed(Route(command, host)))
  {
    LinkDecided(q, cap);
    LinkPerformed(cap, q, host);
  }

  lemma LinkDecided(q: string, cap: Captures)
    requires Classify(q) == LinkBilling
    ensures Decide(q, cap) == LinkAction(cap)
  {
  }

  lemma LinkPerformed(cap: Captures, q: string, host: Host)
    ensures var account := AccountId(Strip(cap.billingAccount));
            var project := Strip(cap.billingProject);
            var command := "gcloud billing projects link " + project + " --billing-account=" + account;
            var r := Perform(LinkAction(cap), q, host);
            && LinkAction(cap) == Issue(command, Linked(account, project))
            && (Route(command, host).Success? ==>
                  r == Report("Successfully linked billing account '" + account + "' to project '" + project + "'."))
            && (!Route(command, host).Success? ==> r == Passed(Route(command, host)))
  {
  }

  /** The buckets branch runs `gcloud storage ls --format=gsutil` itself: it
      fails exactly as the executor would on that vector, but a success is
      reported as the stripped output after its own prefix, never parsed as JSON. */
  lemma BucketsResponse(q: string, cap: Captures, host: Host)
    requires Classify(q) == ListBuckets
    ensures var args := [host.gcloudPath, "storage", "ls", "--format=gsutil"];
            var r := Tool(q, cap, host);
            && (r.Report? <==> Execute(args, host).Success?)
            && (r.Report? ==> r.report == BucketsPrefix + Strip(host.run(args).stdout))
            && (!r.Report? ==> r == Passed(Execute(args, host)))
  {
  }

  /** Typing the command the billing-link branch issues, as a literal command,
      runs that same command: both routes reach the same invocation. */
  lemma LinkSameInvocation(cap: Captures, other: Captures)
    ensures var a := LinkAction(cap);
            && IsDirect(a.command)
            && Decide(a.command, other) == Issue(a.command, Echo)
  {
    var a := LinkAction(cap);
    var project := Strip(cap.billingProject);
    StartsWithAppend("gcloud billing projects link ", project, "gcloud ");
    StartsWithAppend("gcloud billing projects link " + project, " --billing-account=", "gcloud ");
    StartsWithAppend("gcloud billing projects link " + project + " --billing-account=", a.shaping.account, "gcloud ");
    DirectFirst(a.command);
  }

  /** A command that starts with `gcloud ` is run by the gcloud tool. */
  lemma GcloudCommandRuns(command: string, host: Host)
    requires StartsWith(command, "gcloud ")
    ensures BuildArgs(command, host).Run? && BuildArgs(command, host).argv[0] == host.gcloudPath
  {
    assert command[0] == 'g';
  }

  /** A `bq ls` command is run by the bq tool, not taken for a query. */
  lemma BqLsRuns(command: string, host: Host)
    requires StartsWith(command, "bq ls")
    ensures BuildArgs(command, host).Run? && BuildArgs(command, host).argv[0] == host.bqPath
  {
    assert command[..3] == command[..5][..3];
    assert command[3] == 'l';
  }

  lemma StartsWithAppend(s: string, t: string, p: string)
    requires StartsWith(s, p)
    ensures StartsWith(s + t, p)
  {
    assert (s + t)[..|p|] == s[..|p|];
  }

  lemma ServicesRuns(q: string, host: Host)
    ensures BuildArgs(ServicesAction(q).command, host).Run?
  {
    if Qualifier(q, "project").Some? {
      StartsWithAppend("gcloud services list --project=", Qualifier(q, "project").value, "gcloud ");
    }
    GcloudCommandRuns(ServicesAction(q).command, host);
  }

  lemma LinkRuns(cap: Captures, host: Host)
    ensures BuildArgs(LinkAction(cap).command, host).Run?
  {
    var account := AccountId(Strip(cap.billingAccount));
    var project := Strip(cap.billingProject);
    StartsWithAppend("gcloud billing projects link ", project, "gcloud ");
    StartsWithAppend("gcloud billing projects link " + project, " --billing-account=", "gcloud ");
    StartsWithAppend("gcloud billing projects link " + project + " --billing-account=", account, "gcloud ");
    GcloudCommandRuns(LinkAction(cap).command, host);
  }

  lemma DatasetsRuns(q: string, host: Host)
    ensures BuildArgs(DatasetsAction(q).command, host).Run?
  {
    if Qualifier(q, "project").Some? {
      StartsWithAppend("bq ls --project=", Qualifier(q, "project").value, "bq ls");
    }
    BqLsRuns(DatasetsAction(q).command, host);
  }

  lemma TablesRuns(q: string, host: Host)
    requires TablesAction(q).Issue?
    ensures BuildArgs(TablesAction(q).command, host).Run?
  {
    TablesCommandRuns(Qualifier(q, "dataset").value, Qualifier(q, "project"), host);
  }

  lemma TablesCommandRuns(d: string, project: Option<string>, host: Host)
    ensures BuildArgs(TablesCommand(d, project), host).Run?
  {
    StartsWithAppend("bq ls ", d, "bq ls");
    if project.Some? {
      var p := project.value;
      StartsWithAppend("bq ls --project=", p, "bq ls");
      StartsWithAppend("bq ls --project=" + p, " ", "bq ls");
      StartsWithAppend("bq ls --project=" + p + " ", d, "bq ls");
    }
    BqLsRuns(TablesCommand(d, project), host);
  }

  /** The fixed listing commands start with `gcloud `. */
  lemma FixedCommandsRun(i: Intent, q: string, cap: Captures, host: Host)
    requires i in {ListProjects, ListInstances, ListRegions, ListZones, ListBillingAccounts}
    ensures Branch(i, q, cap).Issue? && BuildArgs(Branch(i, q, cap).command, host).Run?
  {
    var command := match i
      case ListProjects => "gcloud projects list"
      case ListInstances => "gcloud compute instances list"
      case ListRegions => "gcloud compute regions list"
      case ListZones => "gcloud compute zones list"
      case _ => "gcloud billing accounts list";
    assert Branch(i, q, cap).command == command;
    GcloudCommandRuns(command, host);
  }

  /** So does the describe command, whatever project was captured. */
  lemma DescribeRuns(q: string, cap: Captures, host: Host)
    ensures Branch(DescribeProject, q, cap).Issue?
    ensures BuildArgs(Branch(DescribeProject, q, cap).command, host).Run?
  {
    StartsWithAppend("gcloud projects describe ", Strip(cap.describedProject), "gcloud ");
    GcloudCommandRuns(Branch(DescribeProject, q, cap).command, host);
  }

  /** Every command a natural-language branch issues is one the router runs:
      none is turned away as unsupported or taken for a malformed query. */
  lemma BranchCommandsRun(i: Intent, q: string, cap: Captures, host: Host)
    requires i != BillingAlias && i != Direct && Branch(i, q, cap).Issue?
    ensures BuildArgs(Branch(i, q, cap).command, host).Run?
  {
    match i
    case ListServices => ServicesRuns(q, host);
    case LinkBilling => LinkRuns(cap, host);
    case ListDatasets => DatasetsRuns(q, host);
    case ListTables => TablesRuns(q, host);
    case DescribeProject => DescribeRuns(q, cap, host);
    case _ => FixedCommandsRun(i, q, cap, host);
  }

  lemma IssuedCommandsRun(q: string, cap: Captures, host: Host)
    requires !IsDirect(q) && Decide(q, cap).Issue?
    ensures BuildArgs(Decide(q, cap).command, host).Run?
  {
    BillingAliasUnreachable(q);
    DirectFirst(q);
    BranchCommandsRun(Classify(q), q, cap, host);
  }
}

=== FILE: intents.dfy ===
/**
 The intent chain of `gcp_tool` in multi_tool_agent/gcp_tool.py: which branch of
 the `if`/`elif` chain a query takes, tested in source order, the first test
 that holds winning. The natural-language tests are the module's regular
 expressions, written as `Pattern` patterns; the qualifiers `in project X` and
 `in dataset X` are extracted by a direct scan that is proved to agree with
 the pattern engine.
 */
module Intents {
  import opened Wrappers
  import opened Text
  import opened Pattern

  /** The branches of `gcp_tool`, in source order; `Unrecognized` is the final
      `return` after the chain. */
  datatype Intent =
    | Direct | ListProjects | ListInstances | ListBuckets | DescribeProject
    | ListServices | ListRegions | ListZones | ListBillingAccounts | LinkBilling
    | BillingAlias | ListDatasets | ListTables | Unrecognized

  /** `list\s+(?:all\s+)?(?:gcp\s+)?<noun>`. */
  function ListPat(noun: string): Pat {
    [Lit("list"), Blank, OptLit("all"), OptLit("gcp"), Lit(noun)]
  }

  /** `describe\s+project\s+(.+)`. */
  const DescribePat: Pat := [Lit("describe"), Blank, Lit("project"), Blank, Line]

  /** `list\s+(?:all\s+)?services`. */
  const ServicesPat: Pat := [Lit("list"), Blank, OptLit("all"), Lit("services")]

  /** `list\s+(?:all\s+)?billing\s+accounts`. */
  const BillingAccountsPat: Pat :=
    [Lit("list"), Blank, OptLit("all"), Lit("billing"), Blank, Lit("accounts")]

  /** `<verb>\s+billing\s+account\s+(.+?)\s+<prep>\s+project\s+(.+)`. */
  function LinkPat(verb: string, prep: string): Pat {
    [Lit(verb), Blank, Lit("billing"), Blank, Lit("account"), Blank, Line,
     Blank, Lit(prep), Blank, Lit("project"), Blank, Line]
  }

  /** The three billing-link searches joined by `or`. */
  const LinkPats: seq<Pat> := [LinkPat("link", "to"), LinkPat("set", "for"), LinkPat("connect", "to")]

  /** `(?:show|list)\s+(?:all\s+)?(?:bigquery|bq)\s+<noun>`, one pattern per
      choice of the two alternations. */
  function BqPats(noun: string): seq<Pat> {
    [[Lit("show"), Blank, OptLit("all"), Lit("bigquery"), Blank, Lit(noun)],
     [Lit("show"), Blank, OptLit("all"), Lit("bq"), Blank, Lit(noun)],
     [Lit("list"), Blank, OptLit("all"), Lit("bigquery"), Blank, Lit(noun)],
     [Lit("list"), Blank, OptLit("all"), Lit("bq"), Blank, Lit(noun)]]
  }

  /** A literal command typed by the user. */
  predicate IsDirect(q: string) {
    StartsWith(q, "gcloud ") || StartsWith(q, "bq ")
  }

  /** The test of each branch, on its own. */
  predicate Matches(i: Intent, q: string) {
    match i
    case Direct => IsDirect(q)
    case ListProjects => Search(ListPat("projects"), q)
    case ListInstances => Search(ListPat("instances"), q)
    case ListBuckets => Search(ListPat("buckets"), q)
    case DescribeProject => Search(DescribePat, q)
    case ListServices => Search(ServicesPat, q)
    case ListRegions => Search(ListPat("regions"), q)
    case ListZones => Search(ListPat("zones"), q)
    case ListBillingAccounts => Search(BillingAccountsPat, q)
    case LinkBilling => SearchAny(LinkPats, q)
    case BillingAlias => StartsWith(q, "gcloud billing ")
    case ListDatasets => SearchAny(BqPats("datasets"), q)
    case ListTables => SearchAny(BqPats("tables"), q)
    case Unrecognized => true
  }

  /** The branch `gcp_tool` takes for a query: one whose test holds, with no
      earlier branch's test holding. */
  function Classify(q: string): (r: Intent)
    ensures Matches(r, q)
    ensures forall j :: Rank(j) < Rank(r) ==> !Matches(j, q)
  {
    if IsDirect(q) then Direct
    else if Search(ListPat("projects"), q) then ListProjects
    else if Search(ListPat("instances"), q) then ListInstances
    else if Search(ListPat("buckets"), q) then ListBuckets
    else if Search(DescribePat, q) then DescribeProject
    else if Search(ServicesPat, q) then ListServices
    else if Search(ListPat("regions"), q) then ListRegions
    else if Search(ListPat("zones"), q) then ListZones
    else if Search(BillingAccountsPat, q) then ListBillingAccounts
    else if SearchAny(LinkPats, q) then LinkBilling
    else if StartsWith(q, "gcloud billing ") then BillingAlias
    else if SearchAny(BqPats("datasets"), q) then ListDatasets
    else if SearchAny(BqPats("tables"), q) then ListTables
    else Unrecognized
  }

  /** The position of each branch in the source. */
  function Rank(i: Intent): nat {
    match i
    case Direct => 0
    case ListProjects => 1
    case ListInstances => 2
    case ListBuckets => 3
    case DescribeProject => 4
    case ListServices => 5
    case ListRegions => 6
    case ListZones => 7
    case ListBillingAccounts => 8
    case LinkBilling => 9
    case BillingAlias => 10
    case ListDatasets => 11
    case ListTables => 12
    case Unrecognized => 13
  }

  /** First match wins: a query takes branch `i` exactly when the test of `i`
      holds and the test of every earlier branch fails. */
  lemma ClassifyExactly(q: string, i: Intent)
    ensures Classify(q) == i <==> Matches(i, q) && forall j :: Rank(j) < Rank(i) ==> !Matches(j, q)
  {
  }

  /** A query that starts with `gcloud ` or `bq ` is sent to the router, whatever
      else it contains. */
  lemma DirectFirst(q: string)
    ensures Classify(q) == Direct <==> IsDirect(q)
  {
  }

  /** The `gcloud billing ` branch can never be taken: the direct branch already
      claims every query with that prefix. */
  lemma BillingAliasUnreachable(q: string)
    ensures Classify(q) != BillingAlias
  {
    if StartsWith(q, "gcloud billing ") {
      assert q[..7] == q[..15][..7];
    }
  }

  /** The capture of `in\s+<kw>\s+(\S+)` for a match that starts at `p`: the
      whole run of non-whitespace after the blanks that follow `kw`. */
  function QualAt(q: string, p: nat, kw: string): (r: Option<string>)
    requires p <= |q|
    ensures r.Some? ==> |r.value| > 0 && forall k :: 0 <= k < |r.value| ==> !IsSpace(r.value[k])
  {
    if !StartsWithCI(q[p..], "in") then None
    else
      var a := SkipSpaces(q, p + 2);
      if a == p + 2 || !StartsWithCI(q[a..], kw) then None
      else
        var b := SkipSpaces(q, a + |kw|);
        if b == a + |kw| || b == |q| then None
        else Some(q[b..SkipWord(q, b)])
  }

  /** The capture of the leftmost match at or after `p`. */
  function QualFrom(q: string, p: nat, kw: string): (r: Option<string>)
    requires p <= |q|
    decreases |q| - p
  {
    if QualAt(q, p, kw).Some? || p == |q| then QualAt(q, p, kw)
    else QualFrom(q, p + 1, kw)
  }

  /** `re.search(r"in\s+<kw>\s+(\S+)", q, re.IGNORECASE)`: the captured word, if any. */
  function Qualifier(q: string, kw: string): Option<string> {
    QualFrom(q, 0, kw)
  }

  /** `in\s+<kw>\s+\S+` as a pattern. */
  function QualPat(kw: string): Pat {
    [Lit("in"), Blank, Lit(kw), Blank, Word]
  }

  /** `\s+\S+` matches at `i` exactly when a run of blanks starts there and
      something other than whitespace follows it. */
  predicate BlankThenWord(q: string, i: nat) {
    i <= |q| && i < SkipSpaces(q, i) < |q|
  }

  lemma BlankWord(q: string, i: nat)
    requires i <= |q|
    ensures Match([Blank, Word], q[i..]) <==> BlankThenWord(q, i)
  {
    var j := SkipSpaces(q, i);
    assert [Blank] + [Word] == [Blank, Word];
    if j == i {
      BlankStops([Word], q, i);
    } else {
      BlankRun([Word], q, i, j);
      assert [Word][1..] == [];
      assert Match([Word], q[j..]) <==> j < |q|;
    }
  }

  /** `<kw>\s+\S+` at `a`. */
  lemma KeywordWord(q: string, a: nat, kw: string)
    requires a <= |q|
    ensures Match([Lit(kw), Blank, Word], q[a..]) <==>
              StartsWithCI(q[a..], kw) && BlankThenWord(q, a + |kw|)
  {
    var ps: Pat := [Lit(kw), Blank, Word];
    MatchLit(kw, [Blank, Word], q[a..]);
    assert [Lit(kw)] + [Blank, Word] == ps;
    if StartsWithCI(q[a..], kw) {
      assert q[a..][|kw|..] == q[a + |kw|..];
      BlankWord(q, a + |kw|);
      assert Match(ps, q[a..]) <==> Match([Blank, Word], q[a + |kw|..]);
    }
  }

  /** The scan finds a capture at `p` exactly when the pattern matches there. */
  lemma QualAtMatch(q: string, p: nat, kw: string)
    requires p <= |q|
    requires |kw| > 0 && !IsSpace(kw[0])
    ensures QualAt(q, p, kw).Some? <==> Match(QualPat(kw), q[p..])
  {
    var rest: Pat := [Lit(kw), Blank, Word];
    MatchLit("in", [Blank] + rest, q[p..]);
    assert [Lit("in")] + ([Blank] + rest) == QualPat(kw);
    if StartsWithCI(q[p..], "in") {
      assert q[p..][2..] == q[p + 2..];
      var a := SkipSpaces(q, p + 2);
      if a == p + 2 {
        BlankStops(rest, q, p + 2);
      } else {
        BlankRun(rest, q, p + 2, a);
        KeywordWord(q, a, kw);
      }
    }
  }

  /** The scan from `p` finds a capture exactly when the pattern matches at some
      position from `p` on. */
  lemma {:induction false} QualFromFinds(q: string, p: nat, kw: string)
    requires p <= |q|
    requires |kw| > 0 && !IsSpace(kw[0])
    ensures QualFrom(q, p, kw).Some? <==> exists k :: p <= k <= |q| && Match(QualPat(kw), q[k..])
    decreases |q| - p
  {
    QualAtMatch(q, p, kw);
    if QualAt(q, p, kw).Some? {
      assert Match(QualPat(kw), q[p..]);
    } else if p < |q| {
      QualFromFinds(q, p + 1, kw);
      assert QualFrom(q, p, kw) == QualFrom(q, p + 1, kw);
      if exists k :: p <= k <= |q| && Match(QualPat(kw), q[k..]) {
        var k :| p <= k <= |q| && Match(QualPat(kw), q[k..]);
        assert p + 1 <= k;
      }
    }
  }

  /** What the scan from `p` finds is the capture of the leftmost match from
      `p` on. */
  lemma {:induction false} QualFromLeftmost(q: string, p: nat, kw: string)
    requires p <= |q|
    requires |kw| > 0 && !IsSpace(kw[0])
    ensures QualFrom(q, p, kw).Some? ==>
              exists k :: p <= k <= |q| && QualFrom(q, p, kw) == QualAt(q, k, kw) &&
                forall m :: p <= m < k ==> !Match(QualPat(kw), q[m..])
    decreases |q| - p
  {
    if QualAt(q, p, kw).None? && p < |q| && QualFrom(q, p, kw).Some? {
      QualAtMatch(q, p, kw);
      QualFromLeftmost(q, p + 1, kw);
      var k :| p + 1 <= k <= |q| && QualFrom(q, p + 1, kw) == QualAt(q, k, kw) &&
               forall m :: p + 1 <= m < k ==> !Match(QualPat(kw), q[m..]);
      assert forall m :: p <= m < k ==> !Match(QualPat(kw), q[m..]);
    }
  }

  /** The qualifier is found exactly when `re.search` finds the pattern, and it
      is the capture of the leftmost match: a non-empty word without
      whitespace. */
  lemma QualifierSearch(q: string, kw: string)
    requires |kw| > 0 && !IsSpace(kw[0])
    ensures Qualifier(q, kw).Some? <==> Search(QualPat(kw), q)
    ensures Qualifier(q, kw).Some? ==>
              exists k :: 0 <= k <= |q| && Qualifier(q, kw) == QualAt(q, k, kw) &&
                forall m :: 0 <= m < k ==> !Match(QualPat(kw), q[m..])
  {
    QualFromFinds(q, 0, kw);
    QualFromLeftmost(q, 0, kw);
    SearchAt(QualPat(kw), q);
  }
}

=== FILE: pattern.dfy ===
/**
 The regular expressions `gcp_tool` tests queries against, as a small matcher.
 Every pattern in multi_tool_agent/gcp_tool.py is a sequence of five kinds of
 pieces: a literal word (matched ignoring ASCII case, as under `re.IGNORECASE`),
 `\s+`, an optional word with its blanks `(?:w\s+)?`, `.+` and `\S+` (each
 with or without a capture group around it). A pattern with an alternation of
 words is written out as several patterns. The matcher asks whether SOME way of
 matching exists, which is exactly what the truth value of `re.search` reports,
 lazy or greedy quantifiers alike.
 */
module Pattern {
  import opened Text

  datatype Piece =
    | Lit(w: string)      // a lower-case word
    | Blank               // `\s+`
    | OptLit(w: string)   // `(?:w\s+)?`
    | Line                // `.+`: one or more characters other than a line feed
    | Word                // `\S+`: one or more non-whitespace characters

  type Pat = seq<Piece>

  /** Some match of the pattern starts at the beginning of `s`. */
  predicate Match(ps: Pat, s: string)
    decreases |s|, |ps|
  {
    if ps == [] then true
    else
      match ps[0]
      case Lit(w) => StartsWithCI(s, w) && Match(ps[1..], s[|w|..])
      case Blank =>
        |s| > 0 && IsSpace(s[0]) && (Match(ps[1..], s[1..]) || Match(ps, s[1..]))
      case Line =>
        |s| > 0 && s[0] != '\n' && (Match(ps[1..], s[1..]) || Match(ps, s[1..]))
      case Word =>
        |s| > 0 && !IsSpace(s[0]) && (Match(ps[1..], s[1..]) || Match(ps, s[1..]))
      case OptLit(w) =>
        (|w| > 0 && StartsWithCI(s, w) && Match([Blank] + ps[1..], s[|w|..]))
        || Match(ps[1..], s)
  }

  /** `re.search`: some match starts somewhere in `s`. */
  predicate Search(ps: Pat, s: string)
    decreases |s|
  {
    Match(ps, s) || (|s| > 0 && Search(ps, s[1..]))
  }

  /** `re.search` with an alternation at the top: one of the patterns is found. */
  predicate SearchAny(alts: seq<Pat>, s: string) {
    exists i :: 0 <= i < |alts| && Search(alts[i], s)
  }

  /** A search succeeds exactly when a match starts at some position. */
  lemma {:induction false} SearchAt(ps: Pat, s: string)
    ensures Search(ps, s) <==> exists p :: 0 <= p <= |s| && Match(ps, s[p..])
    decreases |s|
  {
    assert s[0..] == s;
    if |s| > 0 {
      SearchAt(ps, s[1..]);
      if Search(ps, s[1..]) {
        var p :| 0 <= p <= |s[1..]| && Match(ps, s[1..][p..]);
        assert s[p + 1..] == s[1..][p..];
      }
      if exists p :: 0 <= p <= |s| && Match(ps, s[p..]) {
        var p :| 0 <= p <= |s| && Match(ps, s[p..]);
        if p > 0 {
          assert s[1..][p - 1..] == s[p..];
          assert Search(ps, s[1..]);
        }
        assert Search(ps, s);
      }
    } else {
      assert s[0..] == s;
    }
  }

  /** The pattern can only match text that starts with a non-whitespace character. */
  predicate NonSpaceStart(ps: Pat) {
    |ps| > 0 &&
    match ps[0]
    case Lit(w) => |w| > 0 && !IsSpace(w[0])
    case Word => true
    case _ => false
  }

  lemma MatchStartsNonSpace(ps: Pat, s: string)
    requires NonSpaceStart(ps) && Match(ps, s)
    ensures |s| > 0 && !IsSpace(s[0])
  {
    if ps[0].Lit? {
      assert LowerStr(s[..|ps[0].w|])[0] == Lower(s[0]);
    }
  }

  /** `\s+` cannot start at the end or at a non-whitespace character. */
  lemma BlankStops(ps: Pat, s: string, i: nat)
    requires i <= |s| && (i == |s| || !IsSpace(s[i]))
    ensures !Match([Blank] + ps, s[i..])
  {
  }

  /** Before a piece that needs a non-whitespace character, `\s+` takes exactly
      the whole run of whitespace: matching from inside the run is matching from
      its end. */
  lemma {:induction false} BlankRun(ps: Pat, s: string, i: nat, j: nat)
    requires NonSpaceStart(ps)
    requires i < j <= |s|
    requires forall k :: i <= k < j ==> IsSpace(s[k])
    requires j == |s| || !IsSpace(s[j])
    ensures Match([Blank] + ps, s[i..]) <==> Match(ps, s[j..])
    decreases j - i
  {
    var bps := [Blank] + ps;
    assert bps[0] == Blank && bps[1..] == ps;
    assert s[i..][1..] == s[i + 1..];
    if i + 1 == j {
      BlankStops(ps, s, j);
    } else {
      if Match(ps, s[i + 1..]) {
        MatchStartsNonSpace(ps, s[i + 1..]);
        assert s[i + 1..][0] == s[i + 1];
      }
      BlankRun(ps, s, i + 1, j);
    }
  }

  /** A literal word at the head of a pattern consumes exactly its own length. */
  lemma MatchLit(w: string, ps: Pat, s: string)
    ensures Match([Lit(w)] + ps, s) <==> StartsWithCI(s, w) && Match(ps, s[|w|..])
  {
    assert ([Lit(w)] + ps)[1..] == ps;
  }
}

=== FILE: router.dfy ===
/**
 The command router of multi_tool_agent/command_executor.py: `execute_gcloud_command`
 chooses a handler by prefix, and `handle_gcloud_command`, `handle_bigquery_command`
 and `handle_bigquery_query` turn the command into the argument vector of the
 process to run. Building the vector is separated from running it: `BuildArgs`
 yields a `Plan`, and `Route` runs a plan through the executor.
 */
module Router {
  import opened Wrappers
  import opened Text
  import opened Executor
  import opened BqSql

  /** What a command comes to before anything runs: the argument vector of the
      process, or an error reported without running anything. */
  datatype Plan = Run(argv: seq<string>) | Reject(message: string)

  /** The error for a query command without SQL. */
  const MissingSql := "Invalid BigQuery query command. Missing SQL query."
  const FormatJson := "--format=json"

  function Unsupported(command: string): string {
    "Unsupported command format: " + command
  }

  // ---------------------------------------------------------------------------
  // The output-format flag

  predicate IsFormat(t: string) {
    StartsWith(t, "--format")
  }

  /** `any(arg.startswith("--format") for arg in xs)`. */
  predicate HasFormat(xs: seq<string>) {
    exists i :: 0 <= i < |xs| && IsFormat(xs[i])
  }

  /** How many arguments of `xs` start with `--format`. */
  function FormatCount(xs: seq<string>): nat
    decreases |xs|
  {
    if xs == [] then 0 else (if IsFormat(xs[0]) then 1 else 0) + FormatCount(xs[1..])
  }

  lemma {:induction false} FormatCountPositive(xs: seq<string>)
    ensures FormatCount(xs) > 0 <==> HasFormat(xs)
    decreases |xs|
  {
    if xs != [] {
      FormatCountPositive(xs[1..]);
      if HasFormat(xs) && !IsFormat(xs[0]) {
        var i :| 0 <= i < |xs| && IsFormat(xs[i]);
        assert xs[1..][i - 1] == xs[i];
      }
      if HasFormat(xs[1..]) {
        var i :| 0 <= i < |xs[1..]| && IsFormat(xs[1..][i]);
        assert xs[i + 1] == xs[1..][i];
      }
    }
  }

  lemma {:induction false} FormatCountAppend(xs: seq<string>, ys: seq<string>)
    ensures FormatCount(xs + ys) == FormatCount(xs) + FormatCount(ys)
    decreases |xs|
  {
    if xs == [] {
      assert xs + ys == ys;
    } else {
      assert (xs + ys)[1..] == xs[1..] + ys;
      FormatCountAppend(xs[1..], ys);
    }
  }

  /** `xs`, followed by `--format=json` when no element of `xs` asks for a format. */
  function WithFormat(xs: seq<string>): seq<string> {
    xs + (if HasFormat(xs) then [] else [FormatJson])
  }

  lemma HasFormatAppend(xs: seq<string>, ys: seq<string>)
    ensures HasFormat(xs) || HasFormat(ys) ==> HasFormat(xs + ys)
  {
    if HasFormat(xs) {
      var i :| 0 <= i < |xs| && IsFormat(xs[i]);
      assert (xs + ys)[i] == xs[i];
    } else if HasFormat(ys) {
      var i :| 0 <= i < |ys| && IsFormat(ys[i]);
      assert (xs + ys)[|xs| + i] == ys[i];
    }
  }

  lemma WithFormatHas(xs: seq<string>)
    ensures HasFormat(WithFormat(xs))
  {
    if !HasFormat(xs) {
      assert IsFormat([FormatJson][0]);
    }
    HasFormatAppend(xs, if HasFormat(xs) then [] else [FormatJson]);
  }

  // ---------------------------------------------------------------------------
  // Plain gcloud and bq commands

  /** The vector of `handle_gcloud_command` and `handle_bigquery_command`: the
      tool, then every token of the tail in order, then `--format=json` exactly
      when no token asks for a format already. */
  function GenericArgs(path: string, toks: seq<string>): (r: seq<string>)
    ensures |r| > |toks| && r[0] == path && r[1..|toks| + 1] == toks
    ensures HasFormat(toks) ==> |r| == |toks| + 1
    ensures !HasFormat(toks) ==> |r| == |toks| + 2 && r[|toks| + 1] == FormatJson
    ensures HasFormat(r[1..]) && HasFormat(r)
  {
    WithFormatHas(toks);
    HasFormatAppend([path], WithFormat(toks));
    [path] + WithFormat(toks)
  }

  /** The builder never adds a second format flag: the tail ends up with as many
      as the user gave, or with exactly one when the user gave none. Format
      flags the user repeated are all kept. */
  lemma GenericFormatCount(path: string, toks: seq<string>)
    ensures var n := FormatCount(toks);
            FormatCount(GenericArgs(path, toks)[1..]) == if n == 0 then 1 else n
  {
    var r := GenericArgs(path, toks);
    FormatCountPositive(toks);
    if HasFormat(toks) {
      assert r[1..] == toks;
    } else {
      assert r[1..] == toks + [FormatJson];
      FormatCountAppend(toks, [FormatJson]);
      assert FormatCount([FormatJson]) == 1 + FormatCount([]);
    }
  }

  /** Building again from a built vector's tail changes nothing. */
  lemma GenericIdempotent(path: string, toks: seq<string>)
    ensures GenericArgs(path, GenericArgs(path, toks)[1..]) == GenericArgs(path, toks)
  {
    var r := GenericArgs(path, toks);
    assert [path] + r[1..] == r;
  }

  // ---------------------------------------------------------------------------
  // bq query

  /** The vector `handle_bigquery_query` builds from the flags and SQL it found:
      the tool and `query`, the flags in order, `--format=json` unless some
      argument so far asks for a format, and last the SQL as one argument,
      unquoted and with its table references in backticks. */
  function QueryVector(bqPath: string, sp: Split): (r: seq<string>)
    ensures |r| >= 3 && |r| - 1 >= 2 + |sp.flags| && r[0] == bqPath && r[1] == "query"
    ensures r[..2 + |sp.flags|] == [bqPath, "query"] + sp.flags
    ensures r[|r| - 1] == Backtick(Unquote(sp.sql))
    ensures HasFormat(r[..|r| - 1]) && HasFormat(r)
    ensures |r| == 3 + |sp.flags| <==> HasFormat([bqPath, "query"] + sp.flags)
    ensures |r| == 4 + |sp.flags| ==> r[2 + |sp.flags|] == FormatJson
    ensures |r| <= 4 + |sp.flags|
  {
    var head := [bqPath, "query"] + sp.flags;
    WithFormatHas(head);
    var r := WithFormat(head) + [Backtick(Unquote(sp.sql))];
    assert r[..|r| - 1] == WithFormat(head);
    HasFormatAppend(WithFormat(head), [Backtick(Unquote(sp.sql))]);
    r
  }

  /** `handle_bigquery_query` up to the call of the executor: a command that
      `split(maxsplit=2)` does not cut into three parts has no SQL. */
  function QueryArgs(command: string, bqPath: string, tokenize: string -> seq<string>): (r: Plan)
    ensures r.Reject? <==> |SplitMax(command, 2)| < 3
    ensures r.Reject? ==> r.message == MissingSql
    ensures r.Run? ==> r.argv == QueryVector(bqPath, SplitQuery(SplitMax(command, 2)[2], tokenize))
  {
    var parts := SplitMax(command, 2);
    if |parts| < 3 then Reject(MissingSql)
    else Run(QueryVector(bqPath, SplitQuery(parts[2], tokenize)))
  }

  /** For a command that starts with `bq query `, the test for missing SQL
      and the split both come down to the remainder after the prefix, without
      its leading whitespace. */
  lemma QueryCommand(command: string, bqPath: string, tokenize: string -> seq<string>)
    requires StartsWith(command, "bq query ")
    ensures var rest := LStrip(command[9..]);
            var r := QueryArgs(command, bqPath, tokenize);
            && (r.Reject? <==> rest == "")
            && (r.Run? ==> r.argv == QueryVector(bqPath, SplitQuery(rest, tokenize)))
  {
    BqQuerySplit(command);
  }

  // ---------------------------------------------------------------------------
  // Dispatch

  /** `execute_gcloud_command` up to the call of the executor. The prefixes are
      tried in a fixed order: `bq query `, then `bq `, then `gcloud `. */
  function BuildArgs(command: string, host: Host): (r: Plan)
    ensures StartsWith(command, "bq query ") ==> r == QueryArgs(command, host.bqPath, host.tokenize)
    ensures StartsWith(command, "bq ") && !StartsWith(command, "bq query ") ==>
              r == Run(GenericArgs(host.bqPath, host.tokenize(command[3..])))
    ensures !StartsWith(command, "bq ") && StartsWith(command, "gcloud ") ==>
              r == Run(GenericArgs(host.gcloudPath, host.tokenize(command[7..])))
    ensures !StartsWith(command, "bq ") && !StartsWith(command, "gcloud ") ==>
              r == Reject(Unsupported(command))
    ensures r.Run? ==> |r.argv| > 0 && HasFormat(r.argv)
  {
    if StartsWith(command, "bq query ") then
      StartsWithTrans(command, "bq query ", "bq ");
      QueryArgs(command, host.bqPath, host.tokenize)
    else if StartsWith(command, "bq ") then
      Run(GenericArgs(host.bqPath, host.tokenize(command[3..])))
    else if StartsWith(command, "gcloud ") then
      Run(GenericArgs(host.gcloudPath, host.tokenize(command[7..])))
    else
      Reject(Unsupported(command))
  }

  /** `execute_gcloud_command`: a rejected command is an error without an exit
      code and runs nothing; otherwise the vector is run, so every error of a
      command that ran carries an exit code. The unsupported-format error is
      given exactly to commands with neither prefix. */
  function Route(command: string, host: Host): (r: ExecResult)
    ensures r.Error? && r.exitCode.None? <==> BuildArgs(command, host).Reject?
    ensures r == Error(Unsupported(command), None) <==>
              !StartsWith(command, "bq ") && !StartsWith(command, "gcloud ")
    ensures BuildArgs(command, host).Reject? ==>
              r == Error(BuildArgs(command, host).message, None)
    ensures BuildArgs(command, host).Run? ==> r == Execute(BuildArgs(command, host).argv, host)
  {
    assert MissingSql == "Invalid BigQuery query command." + " Missing SQL query.";
    assert MissingSql[0] == 'I';
    match BuildArgs(command, host)
    case Run(argv) => Execute(argv, host)
    case Reject(m) => Error(m, None)
  }

  /** A `bq query ` command is never handed to the plain `bq` handler: it is
      turned away exactly when nothing but whitespace follows the prefix, and
      otherwise runs the `bq` tool. */
  lemma DispatchQuery(command: string, host: Host)
    requires StartsWith(command, "bq query ")
    ensures StartsWith(command, "bq ")
    ensures var p := BuildArgs(command, host);
            && (p.Reject? <==> LStrip(command[9..]) == "")
            && (p.Reject? ==> p.message == MissingSql)
            && (p.Run? ==> p.argv[0] == host.bqPath && p.argv[1] == "query")
  {
    assert command[..3] == command[..9][..3];
    QueryCommand(command, host.bqPath, host.tokenize);
  }

  /** Any other command runs the tool its prefix names, or, with neither
      prefix, is turned away as unsupported without running anything. */
  lemma DispatchOther(command: string, host: Host)
    requires !StartsWith(command, "bq query ")
    ensures var p := BuildArgs(command, host);
            && (p.Reject? <==> !StartsWith(command, "bq ") && !StartsWith(command, "gcloud "))
            && (p.Reject? ==> p.message == Unsupported(command))
            && (p.Run? ==> p.argv[0] == if StartsWith(command, "bq ") then host.bqPath else host.gcloudPath)
  {
  }

  /** `bq query --flag "SQL"` with a whitespace tokenizer: the flag is kept,
      the format flag is added after it, and the SQL, which already holds a
      backtick, arrives as one argument without its quotes. */
  lemma QuotedQueryWithFlag(bqPath: string, flag: string, body: string)
    requires IsToken(flag) && !IsFormat(flag) && '"' !in flag
    requires '"' !in body && '`' in body
    requires !IsFormat(bqPath)
    ensures QueryArgs("bq query " + flag + " \"" + body + "\"", bqPath, Words)
            == Run([bqPath, "query", flag, FormatJson, body])
  {
    var c := "bq query " + flag + " \"" + body + "\"";
    var rest := flag + " \"" + body + "\"";
    assert c[..9] == "bq query ";
    assert c[9..] == rest;
    assert LStrip(rest) == rest by {
      assert rest[0] == flag[0];
      assert SkipSpaces(rest, 0) == 0;
    }
    QueryCommand(c, bqPath, Words);
    QuotedFlagSplit(flag, body);
    QuotedFlagVector(bqPath, flag, body);
  }

  lemma QuotedFlagSplit(flag: string, body: string)
    requires IsToken(flag) && '"' !in flag && '"' !in body
    ensures SplitQuery(flag + " \"" + body + "\"", Words) == Split([flag], "\"" + body + "\"")
  {
    var pre := flag + " ";
    assert flag + " \"" + body + "\"" == pre + "\"" + body + "\"" + "";
    assert '"' !in pre by {
      assert forall k :: 0 <= k < |pre| ==> pre[k] == if k < |flag| then flag[k] else ' ';
    }
    QuotedCase(pre, body, "", Words);
    assert Strip(pre) == flag by {
      assert pre[0] == flag[0];
      assert SkipSpaces(pre, 0) == 0;
      assert TrimEnd(pre, |pre|) == |flag|;
      assert pre[..|flag|] == flag;
    }
    WordsOfToken(flag);
  }

  lemma QuotedFlagVector(bqPath: string, flag: string, body: string)
    requires !IsFormat(flag) && !IsFormat(bqPath) && '"' !in body && '`' in body
    ensures QueryVector(bqPath, Split([flag], "\"" + body + "\"")) == [bqPath, "query", flag, FormatJson, body]
  {
    assert Unquote("\"" + body + "\"") == body;
    var head := [bqPath, "query", flag];
    assert !IsFormat("query") by {
      assert "query"[0] != "--format"[0];
    }
    assert !HasFormat(head) by {
      forall i | 0 <= i < |head| ensures !IsFormat(head[i]) {
      }
    }
  }
}

=== FILE: suggest.dfy ===
/**
 `get_suggested_commands` in multi_tool_agent/gcp_tool.py: keyword tests on the
 query decide which commands to suggest. The nested `if`s of the source are
 written out as a table of rules, each a conjunction of keyword alternations
 (`re.search(r'list|show|all', query, re.IGNORECASE)` is the alternation
 `["list", "show", "all"]`) with the commands it contributes; a rule nested
 inside another carries the outer test as its first conjunct. The table keeps
 the source's order, so firing rules contribute their commands in it.
 */
module Suggestions {
  import opened Text

  /** The commands the engine can suggest. */
  datatype Cmd =
    | ProjectsList | ProjectsDescribe | InstancesList | StorageLs | RegionsList
    | ZonesList | ServicesList | ServicesListProject | BillingAccountsList
    | BillingLink | BqLs | BqLsJson | BqLsProject | BqLsDataset | BqLsProjectDataset
    | LoggingReadGce | LoggingReadErrors | LoggingLogsList | LoggingLogsListProject
    | LoggingRead

  /** The text of a suggested command. */
  function CmdText(c: Cmd): string {
    match c
    case ProjectsList => "gcloud projects list"
    case ProjectsDescribe => "gcloud projects describe [PROJECT_ID]"
    case InstancesList => "gcloud compute instances list"
    case StorageLs => "gcloud storage ls"
    case RegionsList => "gcloud compute regions list"
    case ZonesList => "gcloud compute zones list"
    case ServicesList => "gcloud services list"
    case ServicesListProject => "gcloud services list --project=[PROJECT_ID]"
    case BillingAccountsList => "gcloud billing accounts list"
    case BillingLink => "gcloud billing projects link [PROJECT_ID] --billing-account=[ACCOUNT_ID]"
    case BqLs => "bq ls"
    case BqLsJson => "bq ls --format=json"
    case BqLsProject => "bq ls --project=[PROJECT_ID]"
    case BqLsDataset => "bq ls [DATASET_ID]"
    case BqLsProjectDataset => "bq ls --project=[PROJECT_ID] [DATASET_ID]"
    case LoggingReadGce => "gcloud logging read \"resource.type=gce_instance\" --limit=10"
    case LoggingReadErrors => "gcloud logging read \"severity>=ERROR\" --project=[PROJECT_ID] --limit=10"
    case LoggingLogsList => "gcloud logging logs list"
    case LoggingLogsListProject => "gcloud logging logs list --project=[PROJECT_ID]"
    case LoggingRead => "gcloud logging read --limit=10"
  }

  /** The query contains one of the words, ignoring case. */
  predicate Mentions(q: string, ws: seq<string>) {
    exists i :: 0 <= i < |ws| && ContainsCI(q, ws[i])
  }

  /** Which keyword tests of the source succeed for a query. */
  datatype Keywords = Keywords(
    project: bool, listShowAll: bool, describe: bool, instance: bool, storage: bool,
    region: bool, zone: bool, service: bool, billing: bool, linking: bool,
    bigquery: bool, dataset: bool, table: bool, logs: bool, read: bool, list: bool)

  /** The `re.search(..., re.IGNORECASE)` tests of `get_suggested_commands`. */
  function Scan(q: string): Keywords {
    Keywords(
      project := Mentions(q, ["project"]),
      listShowAll := Mentions(q, ["list", "show", "all"]),
      describe := Mentions(q, ["describe", "detail", "info"]),
      instance := Mentions(q, ["instance", "vm", "compute"]),
      storage := Mentions(q, ["storage", "bucket"]),
      region := Mentions(q, ["region"]),
      zone := Mentions(q, ["zone"]),
      service := Mentions(q, ["service"]),
      billing := Mentions(q, ["billing", "account"]),
      linking := Mentions(q, ["link", "connect", "set"]),
      bigquery := Mentions(q, ["bigquery", "bq", "dataset"]),
      dataset := Mentions(q, ["dataset"]),
      table := Mentions(q, ["table"]),
      logs := Mentions(q, ["log", "logs", "logging"]),
      read := Mentions(q, ["read", "view", "show", "get"]),
      list := Mentions(q, ["list"]))
  }

  const Fallback: seq<Cmd> := [
    ProjectsList, InstancesList, StorageLs, RegionsList, ZonesList,
    ServicesList, BillingAccountsList, LoggingRead, BqLs
  ]

  const HeaderLine := "You can try these commands (type the full command to execute directly):"

  const RuleCount := 13

  /** Whether rule `i` of the source fires for the keywords `k`; a rule nested
      in another also needs the outer test. */
  predicate Fires(k: Keywords, i: nat) {
    var lsa := k.listShowAll;
    match i
    case 0 => k.project && lsa
    case 1 => k.project && k.describe
    case 2 => k.instance && lsa
    case 3 => k.storage && lsa
    case 4 => k.region && lsa
    case 5 => k.zone && lsa
    case 6 => k.service && lsa
    case 7 => k.billing && lsa
    case 8 => k.billing && k.linking
    case 9 => k.bigquery && k.dataset && lsa
    case 10 => k.bigquery && k.table && lsa
    case 11 => k.logs && k.read
    case 12 => k.logs && k.list
    case _ => false
  }

  /** The commands rule `i` contributes, in order. */
  function RuleCmds(i: nat): (r: seq<Cmd>)
    requires i < RuleCount
    ensures |r| > 0
  {
    match i
    case 0 => [ProjectsList]
    case 1 => [ProjectsDescribe]
    case 2 => [InstancesList]
    case 3 => [StorageLs]
    case 4 => [RegionsList]
    case 5 => [ZonesList]
    case 6 => [ServicesList, ServicesListProject]
    case 7 => [BillingAccountsList]
    case 8 => [BillingLink]
    case 9 => [BqLs, BqLsJson, BqLsProject]
    case 10 => [BqLsDataset, BqLsProjectDataset]
    case 11 => [LoggingReadGce, LoggingReadErrors]
    case _ => [LoggingLogsList, LoggingLogsListProject]
  }

  /** The rule that lists a command; `RuleCount` for the one command no rule
      lists (it only appears in the fallback list). */
  function RuleOf(c: Cmd): nat {
    match c
    case ProjectsList => 0
    case ProjectsDescribe => 1
    case InstancesList => 2
    case StorageLs => 3
    case RegionsList => 4
    case ZonesList => 5
    case ServicesList | ServicesListProject => 6
    case BillingAccountsList => 7
    case BillingLink => 8
    case BqLs | BqLsJson | BqLsProject => 9
    case BqLsDataset | BqLsProjectDataset => 10
    case LoggingReadGce | LoggingReadErrors => 11
    case LoggingLogsList | LoggingLogsListProject => 12
    case LoggingRead => RuleCount
  }

  /** The commands of the rules from `i` on that fire, in order. */
  function FiredFrom(k: Keywords, i: nat): seq<Cmd>
    requires i <= RuleCount
    decreases RuleCount - i
  {
    if i == RuleCount then []
    else (if Fires(k, i) then RuleCmds(i) else []) + FiredFrom(k, i + 1)
  }

  function Fired(k: Keywords): seq<Cmd> {
    FiredFrom(k, 0)
  }

  /** Some keyword rule fires: a topic together with the action words its
      rule asks for. */
  predicate AnyRuleFires(k: Keywords) {
    var lsa := k.listShowAll;
    || (k.project && (lsa || k.describe))
    || (lsa && (k.instance || k.storage || k.region || k.zone || k.service))
    || (k.billing && (lsa || k.linking))
    || (k.bigquery && lsa && (k.dataset || k.table))
    || (k.logs && (k.read || k.list))
  }

  /** The suggested commands: those of the rules that fire, or the fallback list
      when none does. */
  function Suggestions(k: Keywords): seq<Cmd> {
    if Fired(k) == [] then Fallback else Fired(k)
  }

  function SuggestionList(q: string): seq<Cmd> {
    Suggestions(Scan(q))
  }

  function Texts(cs: seq<Cmd>): (r: seq<string>)
    ensures |r| == |cs| && forall i :: 0 <= i < |cs| ==> r[i] == CmdText(cs[i])
  {
    seq(|cs|, i requires 0 <= i < |cs| => CmdText(cs[i]))
  }

  /** `get_suggested_commands(q)`: the header line, then the suggestions
      joined by line feeds; there is at least one, and the text of every
      suggested command appears in the answer. */
  function Suggest(q: string): (r: string)
    ensures StartsWith(r, HeaderLine + "\n")
    ensures r[|HeaderLine| + 1..] == Join(Texts(SuggestionList(q)), "\n")
    ensures |SuggestionList(q)| > 0
    ensures forall c :: c in SuggestionList(q) ==> Contains(r, CmdText(c))
  {
    FallbackExactly(Scan(q));
    SuggestLayout(HeaderLine + "\n", SuggestionList(q));
    HeaderLine + "\n" + Join(Texts(SuggestionList(q)), "\n")
  }

  /** A command is suggested by the rules exactly when a rule that fires lists it. */
  lemma {:induction false} FiredFromMembers(k: Keywords, i: nat, c: Cmd)
    requires i <= RuleCount
    ensures c in FiredFrom(k, i) <==> exists j :: i <= j < RuleCount && Fires(k, j) && c in RuleCmds(j)
    decreases RuleCount - i
  {
    if i < RuleCount {
      FiredFromMembers(k, i + 1, c);
    }
  }

  /** The rules suggest nothing exactly when none fires. */
  lemma {:induction false} FiredFromEmpty(k: Keywords, i: nat)
    requires i <= RuleCount
    ensures FiredFrom(k, i) == [] <==> forall j :: i <= j < RuleCount ==> !Fires(k, j)
    decreases RuleCount - i
  {
    if i < RuleCount {
      FiredFromEmpty(k, i + 1);
    }
  }

  /** Each command is listed by exactly one rule, the one `RuleOf` names. */
  lemma RuleOfUnique(c: Cmd, j: nat)
    requires j < RuleCount
    ensures c in RuleCmds(j) <==> j == RuleOf(c)
  {
  }

  /** A command is suggested by the rules exactly when the rule that lists it fires. */
  lemma FiredMembers(k: Keywords, c: Cmd)
    ensures c in Fired(k) <==> RuleOf(c) < RuleCount && Fires(k, RuleOf(c))
  {
    FiredFromMembers(k, 0, c);
    if c in Fired(k) {
      var j :| 0 <= j < RuleCount && Fires(k, j) && c in RuleCmds(j);
      RuleOfUnique(c, j);
    }
    if RuleOf(c) < RuleCount && Fires(k, RuleOf(c)) {
      RuleOfUnique(c, RuleOf(c));
    }
  }

  /** `AnyRuleFires` is the disjunction of the rules' tests. */
  lemma AnyRuleFiresIff(k: Keywords)
    ensures !AnyRuleFires(k) <==> forall j :: 0 <= j < RuleCount ==> !Fires(k, j)
  {
    if forall j :: 0 <= j < RuleCount ==> !Fires(k, j) {
      assert !Fires(k, 0) && !Fires(k, 1) && !Fires(k, 2) && !Fires(k, 3) && !Fires(k, 4);
      assert !Fires(k, 5) && !Fires(k, 6) && !Fires(k, 7) && !Fires(k, 8);
      assert !Fires(k, 9) && !Fires(k, 10) && !Fires(k, 11) && !Fires(k, 12);
    }
  }

  /** The fallback list is used exactly when no keyword rule fires; either way
      the list is not empty. */
  lemma FallbackExactly(k: Keywords)
    ensures Suggestions(k) == Fallback <==> !AnyRuleFires(k)
    ensures Fired(k) == [] <==> !AnyRuleFires(k)
    ensures |Suggestions(k)| > 0
  {
    FiredFromEmpty(k, 0);
    AnyRuleFiresIff(k);
    if AnyRuleFires(k) {
      FiredMembers(k, LoggingRead);
      FallbackHasLoggingRead();
      assert LoggingRead !in Suggestions(k);
    }
  }

  lemma FallbackHasLoggingRead()
    ensures LoggingRead in Fallback && BqLsDataset !in Fallback
  {
    assert Fallback[7] == LoggingRead;
  }

  /** `gcloud projects list` is suggested exactly when the query mentions a
      project together with `list`, `show` or `all`, or when no rule fires; in
      the first case it comes first. */
  lemma ProjectsListSuggested(k: Keywords)
    ensures ProjectsList in Suggestions(k) <==> (k.project && k.listShowAll) || !AnyRuleFires(k)
    ensures k.project && k.listShowAll ==> Suggestions(k)[0] == ProjectsList
  {
    FallbackExactly(k);
    FiredMembers(k, ProjectsList);
    if k.project && k.listShowAll {
      assert Fires(k, 0);
      assert Fired(k) == [ProjectsList] + FiredFrom(k, 1);
    }
  }

  /** Table suggestions appear only for a query that also mentions BigQuery, a
      dataset or `bq`, and then exactly when it mentions a table and one of
      `list`, `show`, `all`. */
  lemma TableSuggestion(k: Keywords)
    ensures BqLsDataset in Suggestions(k) <==> k.bigquery && k.table && k.listShowAll
  {
    FallbackExactly(k);
    FiredMembers(k, BqLsDataset);
    FallbackHasLoggingRead();
  }

  /** A head, then commands joined by line feeds: the head comes first, the
      joined commands after it, and each command's text stands in the whole. */
  lemma SuggestLayout(head: string, cs: seq<Cmd>)
    ensures var r := head + Join(Texts(cs), "\n");
            && StartsWith(r, head)
            && r[|head|..] == Join(Texts(cs), "\n")
            && forall c :: c in cs ==> Contains(r, CmdText(c))
  {
    var xs := Texts(cs);
    var r := head + Join(xs, "\n");
    assert r[..|head|] == head;
    JoinBehindHas(head, xs, "\n");
    forall c | c in cs
      ensures Contains(r, CmdText(c))
    {
      var i :| 0 <= i < |cs| && cs[i] == c;
      assert xs[i] == CmdText(c);
    }
  }
}

=== FILE: text.dfy ===
/** Optional values, used wherever the source returns None or a "no match". */
module Wrappers {

  datatype Option<+T> = None | Some(value: T)
}

/**
 Python string operations the tool layer relies on: whitespace classification,
 ASCII case folding, prefix and substring tests, strip, `str.split()` with and
 without `maxsplit`, `str.join`, `str.find` and the last part of `str.split(sep)`.
 Whitespace is the ASCII part of what `str.isspace` accepts; non-ASCII spaces and
 Unicode case folding are not modelled.
 */
module Text {
  import opened Wrappers

  /** `str.isspace` for one ASCII character: tab, line feed, vertical tab, form
      feed, carriage return, the four separator controls 0x1c-0x1f, and space. */
  predicate IsSpace(c: char) {
    var n := c as int;
    n == 32 || 9 <= n <= 13 || 28 <= n <= 31
  }

  /** `str.lower` on one character, ASCII letters only. */
  function Lower(c: char): char {
    if 'A' <= c <= 'Z' then (c as int + 32) as char else c
  }

  function LowerStr(s: string): (r: string)
    ensures |r| == |s|
    ensures forall i :: 0 <= i < |s| ==> r[i] == Lower(s[i])
  {
    seq(|s|, i requires 0 <= i < |s| => Lower(s[i]))
  }

  predicate StartsWith(s: string, p: string) {
    |p| <= |s| && s[..|p|] == p
  }

  /** A prefix of a prefix is a prefix. */
  lemma StartsWithTrans(s: string, p: string, q: string)
    requires StartsWith(s, p) && StartsWith(p, q)
    ensures StartsWith(s, q)
  {
    assert s[..|q|] == s[..|p|][..|q|];
  }

  /** Case-insensitive prefix test against a lower-case word. */
  predicate StartsWithCI(s: string, w: string) {
    |w| <= |s| && LowerStr(s[..|w|]) == w
  }

  /** `w in s`. */
  predicate Contains(s: string, w: string)
    decreases |s|
  {
    StartsWith(s, w) || (|s| > 0 && Contains(s[1..], w))
  }

  /** `re.search(w, s, re.IGNORECASE)` for a plain lower-case word `w`. */
  predicate ContainsCI(s: string, w: string) {
    Contains(LowerStr(s), w)
  }

  lemma ContainsAt(s: string, w: string, i: nat)
    requires i + |w| <= |s| && s[i..i + |w|] == w
    ensures Contains(s, w)
    decreases i
  {
    if i > 0 {
      assert s[1..][i - 1..i - 1 + |w|] == w;
      ContainsAt(s[1..], w, i - 1);
    }
  }

  /** A text contains whatever is placed inside it. */
  lemma ContainsMiddle(a: string, w: string, b: string)
    ensures Contains(a + w + b, w)
  {
    var s := a + w + b;
    assert s[|a|..|a| + |w|] == w;
    ContainsAt(s, w, |a|);
  }

  /** Each part of a join stands somewhere inside it. */
  lemma {:induction false} JoinAround(xs: seq<string>, sep: string, i: nat) returns (a: string, b: string)
    requires i < |xs|
    ensures Join(xs, sep) == a + xs[i] + b
    decreases |xs|
  {
    if |xs| == 1 {
      a, b := "", "";
      assert Join(xs, sep) == xs[0];
    } else if i == 0 {
      a, b := "", sep + Join(xs[1..], sep);
      assert Join(xs, sep) == xs[0] + sep + Join(xs[1..], sep);
    } else {
      var a', b' := JoinAround(xs[1..], sep, i - 1);
      a, b := xs[0] + sep + a', b';
      assert Join(xs, sep) == xs[0] + sep + Join(xs[1..], sep);
      assert xs[1..][i - 1] == xs[i];
    }
  }

  /** The first index at or after `i` that does not hold whitespace. */
  function SkipSpaces(s: string, i: nat): (j: nat)
    requires i <= |s|
    ensures i <= j <= |s|
    ensures j == |s| || !IsSpace(s[j])
    ensures forall k :: i <= k < j ==> IsSpace(s[k])
    decreases |s| - i
  {
    if i < |s| && IsSpace(s[i]) then SkipSpaces(s, i + 1) else i
  }

  /** The first index at or after `i` that holds whitespace (or the end). */
  function SkipWord(s: string, i: nat): (j: nat)
    requires i <= |s|
    ensures i <= j <= |s|
    ensures j == |s| || IsSpace(s[j])
    ensures forall k :: i <= k < j ==> !IsSpace(s[k])
    decreases |s| - i
  {
    if i < |s| && !IsSpace(s[i]) then SkipWord(s, i + 1) else i
  }

  /** The length of `s` without its trailing whitespace. */
  function TrimEnd(s: string, n: nat): (m: nat)
    requires n <= |s|
    ensures m <= n
    ensures m == 0 || !IsSpace(s[m - 1])
    ensures forall k :: m <= k < n ==> IsSpace(s[k])
  {
    if n > 0 && IsSpace(s[n - 1]) then TrimEnd(s, n - 1) else n
  }

  /** `s.lstrip()`. */
  function LStrip(s: string): string {
    s[SkipSpaces(s, 0)..]
  }

  /** `s.rstrip()`. */
  function RStrip(s: string): string {
    s[..TrimEnd(s, |s|)]
  }

  /** `s.strip()`. */
  function Strip(s: string): string {
    RStrip(LStrip(s))
  }

  /** `s.strip()` is the part of `s` between a leading and a trailing run of
      whitespace, and it neither starts nor ends with whitespace. */
  lemma StripSlice(s: string)
    ensures var t := Strip(s);
            && (t == "" || (!IsSpace(t[0]) && !IsSpace(t[|t| - 1])))
            && exists i, j :: 0 <= i <= j <= |s| && t == s[i..j]
                 && (forall k :: 0 <= k < i ==> IsSpace(s[k]))
                 && (forall k :: j <= k < |s| ==> IsSpace(s[k]))
  {
    var a := SkipSpaces(s, 0);
    var l := s[a..];
    var m := TrimEnd(l, |l|);
    var t := Strip(s);
    assert t == l[..m] == s[a..a + m];
    if m > 0 {
      assert t[0] == s[a];
    }
    assert forall k :: a + m <= k < |s| ==> s[k] == l[k - a];
  }

  /** Stripping twice is stripping once. */
  lemma StripIdempotent(s: string)
    ensures Strip(Strip(s)) == Strip(s)
  {
    var t := Strip(s);
    StripSlice(s);
    if t != "" {
      assert SkipSpaces(t, 0) == 0;
      assert LStrip(t) == t;
      assert TrimEnd(t, |t|) == |t|;
    }
  }

  /** A non-empty string without whitespace: what `str.split()` yields. */
  predicate IsToken(w: string) {
    w != "" && forall k :: 0 <= k < |w| ==> !IsSpace(w[k])
  }

  /** `s[i:].split()`: the maximal runs of non-whitespace characters, in order. */
  function WordsFrom(s: string, i: nat): (ws: seq<string>)
    requires i <= |s|
    ensures forall k :: 0 <= k < |ws| ==> IsToken(ws[k])
    decreases |s| - i
  {
    var j := SkipSpaces(s, i);
    if j == |s| then []
    else
      var k := SkipWord(s, j);
      assert IsToken(s[j..k]);
      [s[j..k]] + WordsFrom(s, k)
  }

  /** `s.split()`. */
  function Words(s: string): seq<string> {
    WordsFrom(s, 0)
  }

  /** `s[i:].split(maxsplit=n)`: at most `n` leading words, then the remainder
      with its leading (but not its trailing) whitespace removed, if any. */
  function SplitMaxFrom(s: string, i: nat, n: nat): seq<string>
    requires i <= |s|
    decreases |s| - i
  {
    var j := SkipSpaces(s, i);
    if j == |s| then []
    else if n == 0 then [s[j..]]
    else
      var k := SkipWord(s, j);
      [s[j..k]] + SplitMaxFrom(s, k, n - 1)
  }

  /** `s.split(maxsplit=n)`. */
  function SplitMax(s: string, n: nat): seq<string> {
    SplitMaxFrom(s, 0, n)
  }

  /** A string with no whitespace at all splits into itself. */
  lemma WordsOfToken(s: string)
    requires IsToken(s)
    ensures Words(s) == [s]
  {
    assert SkipSpaces(s, 0) == 0;
    assert SkipWord(s, 0) == |s|;
    assert s[0..|s|] == s;
    assert WordsFrom(s, |s|) == [];
  }

  /** `c.split(maxsplit=2)` for a command `c` that starts with "bq query ": the
      two leading words and the stripped remainder, present exactly when the
      remainder is not blank. */
  lemma BqQuerySplit(c: string)
    requires StartsWith(c, "bq query ")
    ensures var rest := LStrip(c[9..]);
            SplitMax(c, 2) == ["bq", "query"] + (if rest == "" then [] else [rest])
  {
    BqQueryWords(c);
    var j := SkipSpaces(c, 8);
    assert j == 9 + SkipSpaces(c[9..], 0) by {
      SkipSpacesShift(c, 9);
    }
    assert LStrip(c[9..]) == c[j..];
    assert SplitMaxFrom(c, 8, 0) == (if j == |c| then [] else [c[j..]]);
    assert SplitMaxFrom(c, 2, 1) == ["query"] + SplitMaxFrom(c, 8, 0);
    assert SplitMaxFrom(c, 0, 2) == ["bq"] + SplitMaxFrom(c, 2, 1);
  }

  /** Where the two leading words of a "bq query " command start and end. */
  lemma BqQueryWords(c: string)
    requires StartsWith(c, "bq query ")
    ensures SkipSpaces(c, 0) == 0 && SkipWord(c, 0) == 2 && c[0..2] == "bq"
    ensures SkipSpaces(c, 2) == 3 && SkipWord(c, 3) == 8 && c[3..8] == "query"
    ensures IsSpace(c[8])
  {
    assert c[..9] == "bq query ";
    assert c[0] == 'b' && c[1] == 'q' && c[2] == ' ';
    assert c[3] == 'q' && c[8] == ' ';
    assert SkipWord(c, 3) == 8 by {
      assert forall k :: 3 <= k < 8 ==> c[k] == "bq query "[k];
    }
    assert c[3..8] == "query";
  }

  /** Skipping whitespace from `i` is skipping it in the suffix from `i`. */
  lemma SkipSpacesShift(s: string, i: nat)
    requires 0 < i <= |s| && IsSpace(s[i - 1])
    ensures SkipSpaces(s, i - 1) == i + SkipSpaces(s[i..], 0)
  {
    var j := SkipSpaces(s, i);
    SkipSpacesSuffix(s, i, i);
    assert SkipSpaces(s, i - 1) == j;
  }

  lemma {:induction false} SkipSpacesSuffix(s: string, i: nat, k: nat)
    requires i <= k <= |s|
    ensures SkipSpaces(s, k) == i + SkipSpaces(s[i..], k - i)
    decreases |s| - k
  {
    if k < |s| && IsSpace(s[k]) {
      assert s[i..][k - i] == s[k];
      SkipSpacesSuffix(s, i, k + 1);
    }
  }

  /** `sep.join(xs)`. */
  function Join(xs: seq<string>, sep: string): string
    decreases |xs|
  {
    if |xs| == 0 then ""
    else if |xs| == 1 then xs[0]
    else xs[0] + sep + Join(xs[1..], sep)
  }

  /** Behind a head, every part of a join still stands in the whole. */
  lemma JoinBehindHas(head: string, xs: seq<string>, sep: string)
    ensures forall i :: 0 <= i < |xs| ==> Contains(head + Join(xs, sep), xs[i])
  {
    forall i | 0 <= i < |xs|
      ensures Contains(head + Join(xs, sep), xs[i])
    {
      var a, b := JoinAround(xs, sep, i);
      ContainsMiddle(head + a, xs[i], b);
      assert head + Join(xs, sep) == (head + a) + xs[i] + b;
    }
  }

  /** `s.split(c)` for a one-character separator: the pieces between the
      occurrences of `c`, in order. */
  function SplitOn(s: string, c: char): (r: seq<string>)
    ensures |r| > 0
    decreases |s|
  {
    match IndexOf(s, c, 0)
    case None => [s]
    case Some(i) => [s[..i]] + SplitOn(s[i + 1..], c)
  }

  /** Joining pieces that do not hold the separator and splitting the result
      on it gives the pieces back. */
  lemma {:induction false} SplitJoin(xs: seq<string>, c: char)
    requires |xs| > 0
    requires forall i :: 0 <= i < |xs| ==> c !in xs[i]
    ensures SplitOn(Join(xs, [c]), c) == xs
    decreases |xs|
  {
    if |xs| == 1 {
      assert IndexOf(xs[0], c, 0) == None;
    } else {
      var s := Join(xs, [c]);
      var x := xs[0];
      assert s == x + [c] + Join(xs[1..], [c]);
      assert s[|x|] == c;
      assert forall k :: 0 <= k < |x| ==> s[k] == x[k];
      assert IndexOf(s, c, 0) == Some(|x|);
      assert s[..|x|] == x;
      assert s[|x| + 1..] == Join(xs[1..], [c]);
      SplitJoin(xs[1..], c);
      assert [x] + xs[1..] == xs;
    }
  }

  /** `s.split(c)[-1]`: the text after the last occurrence of `c`, or all of `s`. */
  function LastSegment(s: string, c: char): (r: string)
    ensures |r| <= |s| && r == s[|s| - |r|..]
    ensures c !in r
    ensures |r| == |s| || s[|s| - |r| - 1] == c
  {
    if s == [] then ""
    else if s[|s| - 1] == c then ""
    else LastSegment(s[..|s| - 1], c) + [s[|s| - 1]]
  }

  /** The first index at or after `from` where `s` holds `c`. */
  function IndexOf(s: string, c: char, from: nat): (r: Option<nat>)
    ensures r.Some? ==> from <= r.value < |s| && s[r.value] == c
    ensures r.Some? ==> forall k :: from <= k < r.value ==> s[k] != c
    ensures r.None? ==> forall k :: from <= k < |s| ==> s[k] != c
    decreases |s| - from
  {
    if from >= |s| then None
    else if s[from] == c then Some(from)
    else IndexOf(s, c, from + 1)
  }

  /** `s.find(sub)`: the first index where `sub` occurs in `s`, or -1. */
  function Find(s: string, sub: string): (r: int)
    ensures -1 <= r <= |s|
    ensures r >= 0 ==> StartsWith(s[r..], sub)
    ensures r >= 0 ==> forall k :: 0 <= k < r ==> !StartsWith(s[k..], sub)
    ensures r == -1 ==> forall k :: 0 <= k <= |s| ==> !StartsWith(s[k..], sub)
  {
    FindFrom(s, sub, 0)
  }

  function FindFrom(s: string, sub: string, from: nat): (r: int)
    requires from <= |s|
    ensures -1 <= r <= |s|
    ensures r >= 0 ==> from <= r && StartsWith(s[r..], sub)
    ensures r >= 0 ==> forall k :: from <= k < r ==> !StartsWith(s[k..], sub)
    ensures r == -1 ==> forall k :: from <= k <= |s| ==> !StartsWith(s[k..], sub)
    decreases |s| - from
  {
    if StartsWith(s[from..], sub) then from
    else if from == |s| then -1
    else FindFrom(s, sub, from + 1)
  }
}
